=== FILE: README.md ===
# breakpad-parser-wasm: the streaming symbol-file parser, in Dafny

The parser reads the text form of a Breakpad symbol file (the `FUNC`,
`FILE`, `PUBLIC` and address-led line records) in chunks of any size and
reports each record to a sink: `onLine(addr, size, line, fileIndex)`,
`onFunc(addr, size, params)`, `onFile(index)`, `onPublic(addr, params)`, and
`onStrValue(bytes)` for the name of a function, file or public symbol. The
parser's whole state is four fields: the grammar position `state`, the
numeric accumulator `int_value`, a row of four 32-bit slots and the cursor
`row_pos`. A token cut by a chunk boundary is resumed on the next call.

The project has five modules:

- `Lexical` (lexical.dfy): bytes and 32-bit words, the two digit tables built
  the way the source builds them, the fold of a run of digits into the
  accumulator (wrapping at 2^32), and the span functions the scanners use
  (leading digits, leading non-digits, line length).
- `Machine` (machine.dfy): the 23 grammar positions as a structured `State`
  (`Ordinal` recovers the source's numbering), `Next`, the events, the four
  fields as one value `Core` with its invariant `WellFormed`, each scanning
  routine as a function on the unconsumed rest of the chunk, one turn of the
  dispatch loop (`Step`), a whole chunk (`Feed`), `finish` (`Finished`) and
  the transcript of a whole input (`Transcript`).
- `StreamParser` (parser.dfy): the parser as the source writes it, a class
  whose fields the methods update in place, with the row as a four-slot
  array and the sink replaced by the log `events`. Every method is proved to
  do what the corresponding function of `Machine` prescribes.
- `Chunking` (chunking.dfy): chunk-split invariance. However the input is cut
  into chunks, the completions sent, the name bytes sent and the events up
  to the fragmentation of names are those of the undivided input.
- `Records` (records.dfy): what the machine does to whole lines. It covers
  line classification, each record kind read from its text, the lines the
  parser drops, and the transcripts of small inputs.

Behaviour of the code that the model keeps and the lemmas make explicit:

- An empty line is not skipped as a line. Its newline is taken for the first
  byte of an unknown line, so the line after it is dropped too
  (`Records.EmptyLineDropsNext`).
- An address-led line record ended by "\r\n" makes the parser drop the
  line after it: the "\r" ends the last decimal field, and the "\n" is
  taken for the first byte of an unknown line
  (`Records.CarriageReturnDropsNext`). In a `FUNC`, `FILE` or `PUBLIC`
  record the "\r" becomes the last byte of the name, and the next line is
  read normally (`Records.CarriageReturnInName`). A line being skipped is
  dropped through its "\n", "\r" included, and the next line is read
  normally too (`Records.OtherLineDropped`).
- The skip past a keyword does not stop at a newline. A bare "P", "FU" or
  "FI" line takes the fields of the line after it for its own, so a line
  record after a bare "P" is read as a public record whose name is the
  rest of that line (`Records.BarePublicTakesNextLine`).
- The keyword of a `FILE` record is skipped up to the first hex digit, but
  the index field is decimal (`Records.FileIndexAtHexLetter`).
- A record still waiting for its completion when the input ends is reported
  by `finish`. A record cut short inside a field is never reported
  (`Records.TruncatedLineDropped`, `Records.UnterminatedFuncDropped`).
- Ending a record resets only the cursor and the state (`on_end`,
  src/lib.rs:290-293); the row is not cleared. The row slots that a record
  does not fill keep the values of the record before it. Completion events
  read only the slots their own record filled, so no event shows a stale
  value (`Records.LineReported` holds whatever the row held before).

## Model

| member | source | states |
|---|---|---|
| Lexical.HexDigit | src/lib.rs:77-87 | a hex table entry is a digit below 16 or 0xff; it agrees with the decimal table on '0'..'9'; it is a digit exactly for '0'..'9' and 'a'..'f'; 'A'..'F' are not digits |
| Lexical.BuildDecTable | src/lib.rs:65-75 | the table built by the source's loop has 256 entries, maps '0'..'9' to 0..9 and everything else to 0xff, and every digit entry is below 10 |
| Lexical.BuildHexTable | src/lib.rs:77-87 | the table built from a copy of the decimal one plus 'a'..'f' is the hex table entry for entry |
| Lexical.Radix.Digit | src/lib.rs:204-205 | a table lookup gives 0xff or a digit below the radix |
| Lexical.FoldAppend | src/lib.rs:202-216 | folding two runs of digits one after the other equals folding their concatenation, which is why a number parked in the accumulator at a chunk end resumes correctly |
| Lexical.FoldSnoc | src/lib.rs:213 | adding one digit applies one accumulator step to the folded value |
| Lexical.FoldIsValue | src/lib.rs:213-231 | the wrapped digit-by-digit fold from v equals v times base^n plus the numeral's value, modulo 2^32 |
| Lexical.LeadingDigits | src/lib.rs:203-205 | the scan stops at the first byte that is not a digit, and all bytes before it are digits |
| Lexical.LeadingNonDigits | src/lib.rs:250-251 | the keyword skip stops at the first hex digit, and no byte before it is a hex digit |
| Lexical.LineLength | src/lib.rs:238-261 | the name scan and the line skip stop at the first newline, and there is no newline before it |
| Lexical.LeadingDigitsOf | src/lib.rs:203-210 | digits followed by a non-digit are scanned to exactly their length |
| Lexical.LineLengthOf | src/lib.rs:238-242 | a newline-free prefix followed by a newline has exactly its length as line length |
| Lexical.LeadingNonDigitsOf | src/lib.rs:250-253 | non-digits followed by a hex digit are skipped to exactly their length |
| Lexical.LeadingDigitsSplit | src/lib.rs:202-216 | the digit run of a join is that of the first part, or the first part whole plus the run of the second |
| Lexical.LineLengthSplit | src/lib.rs:238-246 | the line length of a join is that of the first part, or the first part whole plus that of the second |
| Lexical.LeadingNonDigitsSplit | src/lib.rs:250-256 | the keyword gap of a join is that of the first part, or the first part whole plus that of the second |
| Machine.OrdinalsAreTheEnumeration | src/lib.rs:27-57 | the structured states number 0..22 without collision, as the source's enumeration does |
| Machine.Next | src/lib.rs:59-63 | advancing a keyword or field state gives a field or end state of the same record |
| Machine.NextIsSuccessor | src/lib.rs:59-63 | the next state's ordinal is the current one plus one, the transmute of ordinal+1, and stays in the same record |
| Machine.ClassifyLine | src/lib.rs:172-190 | parse_start sends nothing and consumes at most the first byte; if it consumes none, the state is LineHexAddr |
| Machine.ClassifyKeyword | src/lib.rs:192-199 | parse_func_or_file sends nothing and consumes exactly one byte |
| Machine.Commit | src/lib.rs:206-227 | committing a field keeps the invariant and advances the cursor by one, to at most 4 |
| Machine.ScanNumber | src/lib.rs:201-235 | parse_hex/parse_dec send nothing, keep the invariant and consume at least one byte of the chunk |
| Machine.ScanNumberCommits | src/lib.rs:203-229 | with n digits and then a non-digit, the fold of the digits is stored, the accumulator returns to 0 and exactly n+1 bytes are consumed |
| Machine.ScanNumberParks | src/lib.rs:214-234 | a chunk of digits only is folded into the accumulator and nothing else changes |
| Machine.ScanName | src/lib.rs:237-247 | parse_str sends exactly one fragment and consumes at least one byte |
| Machine.SkipKeyword | src/lib.rs:249-257 | skip_until_digit sends nothing; if it consumes nothing, the new state has the lowest rank |
| Machine.SkipLine | src/lib.rs:259-267 | skip_past_newline sends nothing and consumes at least one byte |
| Machine.EndRecord | src/lib.rs:269-293 | a pending completion goes back to Start and consumes nothing |
| Machine.DispatchArms | src/lib.rs:115-157 | each arm of the dispatch match, by the source's discriminants: which positions run parse_hex, parse_dec, parse_str, skip_until_digit, a completion, skip_past_newline, parse_start and parse_func_or_file; the arms cover all 23 positions without overlap |
| Machine.Step | src/lib.rs:114-158 | one dispatch turn keeps the invariant and stays within the chunk; a turn that consumes nothing lowers the rank; only end and name states send events |
| Machine.Feed | src/lib.rs:112-159 | feeding a chunk keeps the invariant: the cursor counts the committed fields, so the row index is in bounds, and the accumulator is 0 outside numeric fields |
| Machine.Finished | src/lib.rs:161-170 | finish sends one event exactly when a completion is pending; otherwise it sends nothing and changes nothing; afterwards no completion is pending |
| StreamParser.Parser.constructor | src/lib.rs:100-109 | a new parser is in Start with accumulator 0, a zero row and cursor 0, and has sent nothing |
| StreamParser.Parser.Parse | src/lib.rs:111-159 | the fields after the chunk are those Feed prescribes, and the events it sends are appended to the log in order |
| StreamParser.Parser.Advance | src/lib.rs:115-157 | one turn of the loop keeps the loop invariant and moves the offset forward or lowers the rank |
| StreamParser.Parser.Turn | src/lib.rs:115-157 | one turn changes the fields, the log and the offset as Step prescribes |
| StreamParser.Parser.Finish | src/lib.rs:161-170 | the fields and log after finish are those Finished prescribes |
| StreamParser.Parser.ParseStart | src/lib.rs:172-190 | in place, exactly ClassifyLine |
| StreamParser.Parser.ParseFuncOrFile | src/lib.rs:192-199 | in place, exactly ClassifyKeyword |
| StreamParser.Parser.ParseHex | src/lib.rs:201-217 | the shift-or loop over the chunk does exactly ScanNumber in a hex field |
| StreamParser.Parser.ParseDec | src/lib.rs:219-235 | the multiply-add loop over the chunk does exactly ScanNumber in a decimal field |
| StreamParser.Parser.EndField | src/lib.rs:206-209 | storing the value under the cursor, advancing the cursor and the state and zeroing the accumulator is Commit |
| StreamParser.Parser.ParseStr | src/lib.rs:237-247 | the newline search does exactly ScanName and appends its fragment to the log |
| StreamParser.Parser.SkipUntilDigit | src/lib.rs:249-257 | the hex-digit search does exactly SkipKeyword |
| StreamParser.Parser.SkipPastNewline | src/lib.rs:259-267 | the newline search does exactly SkipLine |
| StreamParser.Parser.OnLineEnd | src/lib.rs:269-273 | the cursor and state are reset first, then the line record's four row slots, which the reset leaves alone, are sent |
| StreamParser.Parser.OnFuncEnd | src/lib.rs:275-278 | the cursor and state are reset first, then the function record's three row slots, which the reset leaves alone, are sent |
| StreamParser.Parser.OnFileEnd | src/lib.rs:280-283 | the cursor and state are reset first, then the file record's index slot, which the reset leaves alone, is sent |
| StreamParser.Parser.OnPublicEnd | src/lib.rs:285-288 | the cursor and state are reset first, then the public record's two row slots, which the reset leaves alone, are sent |
| StreamParser.Parser.OnEnd | src/lib.rs:290-293 | the cursor returns to 0 and the state to Start; the row is not cleared |
| Chunking.FragmentsMerge | src/lib.rs:241-245 | one fragment and the same bytes sent as two fragments are equal up to fragmentation |
| Chunking.CanonicalKeeps | src/lib.rs:237-247 | cutting names into single-byte fragments keeps the completions and the name bytes |
| Chunking.SameUpToFragmentation | src/lib.rs:237-247 | two event logs equal up to fragmentation have the same completions and the same name bytes, in order |
| Chunking.ScanNumberDecided | src/lib.rs:203-211 | a field that ends inside the first part of a chunk is scanned the same whatever follows |
| Chunking.ScanNumberParked | src/lib.rs:202-234 | a number cut by a chunk boundary, parked in the accumulator and resumed, gives the same outcome as the unsplit scan |
| Chunking.ScanNameParked | src/lib.rs:237-247 | a name cut by a chunk boundary is sent as two fragments that join to the unsplit fragment |
| Chunking.StepResumes | src/lib.rs:114-158 | one turn on a chunk joined to more input agrees with the turn on the first part, followed by resuming on the rest |
| Chunking.FeedSplit | src/lib.rs:112-159 | feeding x then y reaches the same fields as feeding x+y, and the events are equal up to fragmentation |
| Chunking.FeedAllIsFeed | src/lib.rs:112-159 | feeding a list of chunks reaches the fields of feeding their concatenation, and the events are equal up to fragmentation |
| Chunking.ChunkSplitInvariance | src/lib.rs:112-170 | any split of the input, then finish: the same completions in the same order, the same name bytes, the same events up to fragmentation, including empty fragments |
| Records.LineClassification | src/lib.rs:172-190 | from Start: a hex digit enters LineHexAddr and is not consumed; 'F' enters FuncOrFile, 'P' the public keyword and anything else Skip, each consuming the byte; nothing is sent and the row is kept |
| Records.KeywordClassification | src/lib.rs:192-199 | after 'F': 'U' enters the function keyword, 'I' the file keyword, anything else Skip; one byte is consumed |
| Records.StallingSteps | src/lib.rs:139-257 | a turn consumes no byte exactly at Start or a keyword before a hex digit, or with a completion pending; these go to LineHexAddr, the first field, or Start |
| Records.EventsOfAStep | src/lib.rs:139-247 | a pending completion sends only its completion event; other turns send nothing or one name fragment; a function, file or public record becomes complete only in the turn that sends its name's last fragment |
| Records.EmptyChunksChangeNothing | src/lib.rs:112-114 | any number of empty chunks change no field and send nothing |
| Records.FeedNumber | src/lib.rs:201-235 | a run of digits and a delimiter: the fold of the digits is committed and the delimiter consumed, and feeding continues after it |
| Records.FeedName | src/lib.rs:237-243 | a name up to its newline is sent as one fragment and the state moves to the record's end |
| Records.FeedNameParks | src/lib.rs:244-246 | a chunk that ends inside a name sends the name so far and keeps scanning it |
| Records.FeedSkipsLine | src/lib.rs:259-267 | in Skip, a line is dropped up to and including its newline and nothing is sent |
| Records.FeedRecordEnd | src/lib.rs:269-293 | a pending completion is sent before anything else of the chunk, the state returns to Start and the row is kept |
| Records.LineRecord | src/lib.rs:172-235 | the text of a line record (hex address, hex size, decimal line, decimal file index) leaves the four values in the row with its completion pending |
| Records.LineReported | src/lib.rs:269-273 | a newline-terminated line record followed by more input is reported as OnLine of its four values |
| Records.FuncRecord | src/lib.rs:192-243 | the text of a FUNC record sends its name, then leaves address, size and parameter size in the row with its completion pending |
| Records.FileRecord | src/lib.rs:192-243 | the text of a FILE record sends its name, then leaves the decimal index in the row with its completion pending |
| Records.PublicRecord | src/lib.rs:172-243 | the text of a PUBLIC record sends its name, then leaves address and parameter size in the row with its completion pending |
| Records.OtherLineDropped | src/lib.rs:181-267 | a line starting with anything but a hex digit, 'F' or 'P' is dropped with nothing sent |
| Records.EmptyLineDropsNext | src/lib.rs:181-267 | an empty line makes the parser drop the line after it |
| Records.UnknownKeywordDropped | src/lib.rs:192-267 | a line starting with 'F' and then anything but 'U' or 'I' is dropped with nothing sent |
| Records.FileIndexAtHexLetter | src/lib.rs:219-257 | a FILE keyword followed by a hex letter gives index 0, the letter is consumed as the delimiter and the name starts after it |
| Records.LineTranscript | src/lib.rs:269-273 | a line record alone in the input yields exactly one OnLine with its four values |
| Records.TruncatedLineDropped | src/lib.rs:161-170 | a line record cut inside its last field yields nothing |
| Records.FuncTranscript | src/lib.rs:275-278 | a FUNC record alone yields its name, then OnFunc of address, size and parameter size |
| Records.FuncNameParks | src/lib.rs:237-247 | input ending inside a function's name sends the name so far and leaves the three values in the row |
| Records.UnterminatedFuncDropped | src/lib.rs:161-170 | a FUNC record whose name has no newline sends its name but is never reported |
| Records.FuncNameAcrossChunks | src/lib.rs:237-278 | a name cut by a chunk boundary arrives as two fragments, both before OnFunc |
| Records.CarriageReturnDropsNext | src/lib.rs:181-235 | a line record ended by "\r\n" is reported, and the line after it is dropped |
| Records.CarriageReturnInName | src/lib.rs:237-247 | a name ended by "\r\n" is sent with the "\r" as its last byte, the record is reported when the next line begins, and that line is fed from Start |
| Records.BarePublicTakesNextLine | src/lib.rs:249-257 | a "P" line with no hex digit takes the next line's address and size as its own, and the rest of that line as its name |
| Records.FileTranscript | src/lib.rs:280-283 | a FILE record alone yields its name, then OnFile of its index |
| Records.PublicTranscript | src/lib.rs:285-288 | a PUBLIC record alone yields its name, then OnPublic of address and parameter size |

## Left out

- The `wasm_bindgen` foreign interface to the JavaScript sink (src/lib.rs:7-23 and the binding attributes). The sink is a log of events that the parser appends to, and a name fragment is a copy of the bytes rather than a borrowed slice.
- The `wee_alloc` global allocator and `#![no_std]` (src/lib.rs:1-4): runtime set-up with no effect on parsing.
- The `unsafe` transmute of `State::next`. It is replaced by a structured `Next` defined on the states where the source calls it. `Machine.NextIsSuccessor` shows that it is the ordinal plus one.
- Overflow panics of a debug build in the decimal step `int_value * 10 + d`. The model wraps modulo 2^32, which is what a release or wasm build does.
- The hex step `(v << 4) | d` is modelled as `(v * 16 + d) mod 2^32`. For a digit d below 16 this is the same 32-bit value.
- Records.FuncRecord, Records.FileRecord, Records.PublicRecord, Records.LineRecord: each describes a record whose text follows the grammar (digits where numbers go, a name without newline). Malformed text is covered only by the step-level lemmas and the dropped-line lemmas, not record by record.

=== FILE: chunking.dfy ===
/**
 * Chunk-split invariance: the parser may be handed its input in chunks cut
 * anywhere. Cutting changes nothing but the way a name is broken into
 * `onStrValue` fragments; the fields reached, the completions sent and the
 * name bytes sent, in order, are those of the undivided input.
 */
module Chunking {
  import opened Lexical
  import opened Machine

  // ---------------------------------------------------------------------------
  // Events up to the fragmentation of names
  // ---------------------------------------------------------------------------

  /** The bytes of a name, each as a fragment of its own. */
  function Fragments(v: seq<byte>): (es: seq<Event>)
  {
    if v == [] then [] else [OnStrValue([v[0]])] + Fragments(v[1..])
  }

  /** An event with its name, if any, cut into single bytes; an empty fragment disappears. */
  function Unit(e: Event): (es: seq<Event>)
  {
    if e.OnStrValue? then Fragments(e.value) else [e]
  }

  /** The events with every name cut into single-byte fragments. */
  function Canonical(es: seq<Event>): (r: seq<Event>)
  {
    if es == [] then [] else Unit(es[0]) + Canonical(es[1..])
  }

  lemma {:induction false} FragmentsAppend(a: seq<byte>, b: seq<byte>)
    ensures Fragments(a + b) == Fragments(a) + Fragments(b)
    decreases |a|
  {
    if a == [] {
      assert a + b == b;
    } else {
      assert (a + b)[0] == a[0];
      assert (a + b)[1..] == a[1..] + b;
      FragmentsAppend(a[1..], b);
    }
  }

  /** Cutting names into bytes can be done piece by piece. */
  lemma {:induction false} CanonicalAppend(a: seq<Event>, b: seq<Event>)
    ensures Canonical(a + b) == Canonical(a) + Canonical(b)
    decreases |a|
  {
    if a == [] {
      assert a + b == b;
    } else {
      assert (a + b)[0] == a[0];
      assert (a + b)[1..] == a[1..] + b;
      CanonicalAppend(a[1..], b);
    }
  }

  /** One fragment, or the same bytes sent as two fragments: the same up to fragmentation. */
  lemma FragmentsMerge(a: seq<byte>, b: seq<byte>)
    ensures Canonical([OnStrValue(a + b)]) == Canonical([OnStrValue(a)] + [OnStrValue(b)])
  {
    FragmentsAppend(a, b);
    CanonicalAppend([OnStrValue(a)], [OnStrValue(b)]);
  }

  /** The completion events, in order. */
  function Completions(es: seq<Event>): (r: seq<Event>)
  {
    if es == [] then []
    else if es[0].OnStrValue? then Completions(es[1..])
    else [es[0]] + Completions(es[1..])
  }

  /** All name bytes sent, in order. */
  function Spelling(es: seq<Event>): (v: seq<byte>)
  {
    if es == [] then []
    else if es[0].OnStrValue? then es[0].value + Spelling(es[1..])
    else Spelling(es[1..])
  }

  lemma {:induction false} CompletionsAppend(a: seq<Event>, b: seq<Event>)
    ensures Completions(a + b) == Completions(a) + Completions(b)
    ensures Spelling(a + b) == Spelling(a) + Spelling(b)
    decreases |a|
  {
    if a == [] {
      assert a + b == b;
    } else {
      assert (a + b)[0] == a[0];
      assert (a + b)[1..] == a[1..] + b;
      CompletionsAppend(a[1..], b);
    }
  }

  lemma {:induction false} FragmentsKeep(v: seq<byte>)
    ensures Completions(Fragments(v)) == [] && Spelling(Fragments(v)) == v
    decreases |v|
  {
    if v != [] {
      var f := Fragments(v);
      assert f == [OnStrValue([v[0]])] + Fragments(v[1..]);
      CompletionsAppend([OnStrValue([v[0]])], Fragments(v[1..]));
      FragmentsKeep(v[1..]);
      assert [v[0]] + v[1..] == v;
    }
  }

  /** Cutting names into bytes keeps the completions and the name bytes, in order. */
  lemma {:induction false} CanonicalKeeps(es: seq<Event>)
    ensures Completions(Canonical(es)) == Completions(es)
    ensures Spelling(Canonical(es)) == Spelling(es)
    decreases |es|
  {
    if es != [] {
      CompletionsAppend(Unit(es[0]), Canonical(es[1..]));
      if es[0].OnStrValue? {
        FragmentsKeep(es[0].value);
      }
      CanonicalKeeps(es[1..]);
    }
  }

  /** Two event sequences that agree up to fragmentation send the same completions and name bytes. */
  lemma SameUpToFragmentation(a: seq<Event>, b: seq<Event>)
    requires Canonical(a) == Canonical(b)
    ensures Completions(a) == Completions(b) && Spelling(a) == Spelling(b)
  {
    CanonicalKeeps(a);
    CanonicalKeeps(b);
  }

  // ---------------------------------------------------------------------------
  // One turn across a chunk boundary
  // ---------------------------------------------------------------------------

  /**
   * A turn that starts in chunk `x` behaves the same when `y` follows, or it
   * used up all of `x` waiting for more input, and then running it over
   * `x + y` is running it over `x` and then over `y`, up to fragmentation.
   */
  ghost predicate Resumes(c: Core, x: seq<byte>, y: seq<byte>)
    requires WellFormed(c) && |x| > 0 && |y| > 0
  {
    var o := Step(c, x);
    var p := Step(c, x + y);
    p == o
    || (o.used == |x|
        && var q := Step(o.core, y);
           p.core == q.core && p.used == |x| + q.used
           && Canonical(p.emitted) == Canonical(o.emitted + q.emitted))
  }

  lemma SliceOfJoin(x: seq<byte>, y: seq<byte>, k: nat)
    requires k <= |x|
    ensures (x + y)[..k] == x[..k] && (x + y)[k..] == x[k..] + y
  {
  }

  lemma SliceOfJoinPast(x: seq<byte>, y: seq<byte>, k: nat)
    requires k <= |y|
    ensures (x + y)[..|x| + k] == x + y[..k] && (x + y)[|x| + k..] == y[k..]
  {
  }

  lemma ClassifyResumes(c: Core, x: seq<byte>, y: seq<byte>)
    requires WellFormed(c) && |x| > 0 && |y| > 0
    requires c.state == Start || c.state == FuncOrFile || IsEndState(c.state)
    ensures Resumes(c, x, y)
  {
    StepDispatch(c, x);
    StepDispatch(c, x + y);
    assert (x + y)[0] == x[0];
  }

  lemma ScanNumberResumes(c: Core, x: seq<byte>, y: seq<byte>)
    requires WellFormed(c) && IsNumberState(c.state) && |x| > 0 && |y| > 0
    ensures Resumes(c, x, y)
  {
    StepDispatch(c, x);
    StepDispatch(c, x + y);
    if LeadingDigits(RadixOf(c.state), x) < |x| {
      ScanNumberDecided(c, x, y);
    } else {
      ScanNumberParked(c, x, y);
    }
  }

  /** A numeral that ends inside `x` ends there whatever follows. */
  lemma ScanNumberDecided(c: Core, x: seq<byte>, y: seq<byte>)
    requires WellFormed(c) && IsNumberState(c.state) && |x| > 0
    requires LeadingDigits(RadixOf(c.state), x) < |x|
    ensures ScanNumber(c, x + y) == ScanNumber(c, x)
  {
    var radix := RadixOf(c.state);
    LeadingDigitsSplit(radix, x, y);
    SliceOfJoin(x, y, LeadingDigits(radix, x));
    ScanNumberStops(c, x + y);
    ScanNumberStops(c, x);
  }

  /** A numeral cut by the chunk boundary: the accumulator carries the digits over. */
  lemma ScanNumberParked(c: Core, x: seq<byte>, y: seq<byte>)
    requires WellFormed(c) && IsNumberState(c.state) && |x| > 0 && |y| > 0
    requires LeadingDigits(RadixOf(c.state), x) == |x|
    ensures var o := ScanNumber(c, x); var p := ScanNumber(c, x + y); var q := ScanNumber(o.core, y);
            o.used == |x| && o.core.state == c.state && p == Outcome(q.core, q.emitted, |x| + q.used)
  {
    var radix := RadixOf(c.state);
    assert x[..|x|] == x;
    ScanNumberParks(c, x);
    var d := c.(intValue := Fold(radix, c.intValue, x));
    if LeadingDigits(radix, y) < |y| {
      FoldAcross(radix, c.intValue, x, y);
      ScanNumberStops(c, x + y);
      ScanNumberStops(d, y);
      CommitIgnoresAccumulator(c, d, Fold(radix, d.intValue, y[..LeadingDigits(radix, y)]));
    } else {
      assert y[..|y|] == y;
      FoldAppend(radix, c.intValue, x, y);
      ScanNumberParks(c, x + y);
      ScanNumberParks(d, y);
    }
  }

  /** A numeral that ends inside the chunk: the digits before the delimiter are committed. */
  lemma ScanNumberStops(c: Core, s: seq<byte>)
    requires WellFormed(c) && IsNumberState(c.state) && |s| > 0
    requires LeadingDigits(RadixOf(c.state), s) < |s|
    ensures var n := LeadingDigits(RadixOf(c.state), s);
            ScanNumber(c, s) == Outcome(Commit(c, Fold(RadixOf(c.state), c.intValue, s[..n])), [], n + 1)
  {
  }

  /** Committing a value does not look at the accumulator. */
  lemma CommitIgnoresAccumulator(c: Core, d: Core, v: u32)
    requires WellFormed(c) && IsNumberState(c.state) && d == c.(intValue := d.intValue)
    ensures WellFormed(d) && Commit(c, v) == Commit(d, v)
  {
  }

  lemma ScanNameResumes(c: Core, x: seq<byte>, y: seq<byte>)
    requires WellFormed(c) && IsNameState(c.state) && |x| > 0 && |y| > 0
    ensures Resumes(c, x, y)
  {
    StepDispatch(c, x);
    StepDispatch(c, x + y);
    LineLengthSplit(x, y);
    var n := LineLength(x);
    if n < |x| {
      SliceOfJoin(x, y, n);
      assert ScanName(c, x + y) == ScanName(c, x);
    } else {
      StepDispatch(c, y);
      ScanNameParked(c, x, y);
    }
  }

  /** A name cut by the chunk boundary: it is sent as two fragments instead of one. */
  lemma ScanNameParked(c: Core, x: seq<byte>, y: seq<byte>)
    requires WellFormed(c) && IsNameState(c.state) && |x| > 0 && |y| > 0
    requires LineLength(x) == |x| && LineLength(x + y) == |x| + LineLength(y)
    ensures var o := ScanName(c, x); var p := ScanName(c, x + y); var q := ScanName(c, y);
            o == Outcome(c, [OnStrValue(x)], |x|)
            && p.core == q.core && p.used == |x| + q.used
            && Canonical(p.emitted) == Canonical(o.emitted + q.emitted)
  {
    assert x[..|x|] == x;
    var m := LineLength(y);
    if m < |y| {
      SliceOfJoinPast(x, y, m);
      assert (x + y)[..LineLength(x + y)] == x + y[..m];
      assert ScanName(c, x + y).emitted == [OnStrValue(x + y[..m])];
      assert ScanName(c, y).emitted == [OnStrValue(y[..m])];
      FragmentsMerge(x, y[..m]);
    } else {
      assert ScanName(c, x + y).emitted == [OnStrValue(x + y)];
      assert ScanName(c, y).emitted == [OnStrValue(y)];
      FragmentsMerge(x, y);
    }
  }

  lemma SkipKeywordResumes(c: Core, x: seq<byte>, y: seq<byte>)
    requires WellFormed(c) && IsKeywordState(c.state) && |x| > 0 && |y| > 0
    ensures Resumes(c, x, y)
  {
    StepDispatch(c, x);
    StepDispatch(c, x + y);
    LeadingNonDigitsSplit(x, y);
    if LeadingNonDigits(x) == |x| {
      StepDispatch(c, y);
    }
  }

  lemma SkipLineResumes(c: Core, x: seq<byte>, y: seq<byte>)
    requires WellFormed(c) && c.state == Skip && |x| > 0 && |y| > 0
    ensures Resumes(c, x, y)
  {
    StepDispatch(c, x);
    StepDispatch(c, x + y);
    LineLengthSplit(x, y);
    if LineLength(x) == |x| {
      StepDispatch(c, y);
    }
  }

  /** Every turn resumes across a chunk boundary. */
  lemma StepResumes(c: Core, x: seq<byte>, y: seq<byte>)
    requires WellFormed(c) && |x| > 0 && |y| > 0
    ensures Resumes(c, x, y)
  {
    if c.state == Start || c.state == FuncOrFile || IsEndState(c.state) {
      ClassifyResumes(c, x, y);
    } else if IsNumberState(c.state) {
      ScanNumberResumes(c, x, y);
    } else if IsNameState(c.state) {
      ScanNameResumes(c, x, y);
    } else if IsKeywordState(c.state) {
      SkipKeywordResumes(c, x, y);
    } else {
      SkipLineResumes(c, x, y);
    }
  }

  // ---------------------------------------------------------------------------
  // Whole chunks
  // ---------------------------------------------------------------------------

  /**
   * Feeding `x` and then `y` reaches the same fields as feeding `x + y`, and
   * sends the same events up to the fragmentation of names.
   */
  ghost predicate SplitAgrees(c: Core, x: seq<byte>, y: seq<byte>)
    requires WellFormed(c)
  {
    var first := Feed(c, x);
    var second := Feed(first.core, y);
    Feed(c, x + y).core == second.core
    && Canonical(Feed(c, x + y).emitted) == Canonical(first.emitted + second.emitted)
  }

  /** Chunk-split invariance for two chunks, from any well-formed state. */
  lemma {:induction false} FeedSplit(c: Core, x: seq<byte>, y: seq<byte>)
    requires WellFormed(c)
    ensures SplitAgrees(c, x, y)
    decreases |x|, Rank(c.state), 1
  {
    if x == [] {
      assert x + y == y;
      assert [] + Feed(c, y).emitted == Feed(c, y).emitted;
    } else if y == [] {
      assert x + y == x;
      assert Feed(c, x).emitted + [] == Feed(c, x).emitted;
    } else {
      StepResumes(c, x, y);
      if Step(c, x + y) == Step(c, x) {
        FeedSplitDecided(c, x, y);
      } else {
        FeedSplitParked(c, x, y);
      }
    }
  }

  /** The first turn ends inside `x`: it is the same turn over `x + y`, and the rest follows by induction. */
  lemma {:induction false} FeedSplitDecided(c: Core, x: seq<byte>, y: seq<byte>)
    requires WellFormed(c) && |x| > 0 && |y| > 0 && Step(c, x + y) == Step(c, x)
    ensures SplitAgrees(c, x, y)
    decreases |x|, Rank(c.state), 0
  {
    var o := Step(c, x);
    SliceOfJoin(x, y, o.used);
    FeedSplit(o.core, x[o.used..], y);
    var tail := Feed(o.core, x[o.used..]);
    var rest := Feed(o.core, x[o.used..] + y);
    CanonicalPrefix(o.emitted, rest.emitted, tail.emitted, Feed(tail.core, y).emitted);
  }

  /** The first turn waits at the end of `x`: over `x + y` it is that turn followed by the first turn over `y`. */
  lemma FeedSplitParked(c: Core, x: seq<byte>, y: seq<byte>)
    requires WellFormed(c) && |x| > 0 && |y| > 0
    requires Step(c, x).used == |x|
    requires var o := Step(c, x); var p := Step(c, x + y); var q := Step(o.core, y);
             p.core == q.core && p.used == |x| + q.used
             && Canonical(p.emitted) == Canonical(o.emitted + q.emitted)
    ensures SplitAgrees(c, x, y)
  {
    var o := Step(c, x);
    var p := Step(c, x + y);
    var q := Step(o.core, y);
    FeedParked(c, x);
    SliceOfJoinPast(x, y, q.used);
    var rest := Feed(q.core, y[q.used..]);
    FeedTurn(o.core, y);
    FeedTurn(c, x + y);
    assert (x + y)[p.used..] == y[q.used..];
    assert Feed(p.core, (x + y)[p.used..]) == rest;
    CanonicalRegroup(p.emitted, o.emitted, q.emitted, rest.emitted);
  }

  /** A turn that waits at the end of the chunk is all that feeding the chunk does. */
  lemma FeedParked(c: Core, s: seq<byte>)
    requires WellFormed(c) && |s| > 0 && Step(c, s).used == |s|
    ensures Feed(c, s) == Trace(Step(c, s).core, Step(c, s).emitted)
  {
    assert s[|s|..] == [];
    assert Step(c, s).emitted + [] == Step(c, s).emitted;
  }

  /** Feeding a non-empty chunk is one turn and then feeding the rest. */
  lemma FeedTurn(c: Core, s: seq<byte>)
    requires WellFormed(c) && |s| > 0
    ensures var o := Step(c, s); var t := Feed(o.core, s[o.used..]);
            Feed(c, s) == Trace(t.core, o.emitted + t.emitted)
  {
  }

  lemma CanonicalPrefix(a: seq<Event>, b: seq<Event>, c: seq<Event>, d: seq<Event>)
    requires Canonical(b) == Canonical(c + d)
    ensures Canonical(a + b) == Canonical(a + c + d)
  {
    CanonicalAppend(a, b);
    CanonicalAppend(a + c, d);
    CanonicalAppend(a, c);
    CanonicalAppend(c, d);
    ConcatAssoc(Canonical(a), Canonical(c), Canonical(d));
  }

  lemma CanonicalRegroup(p: seq<Event>, o: seq<Event>, q: seq<Event>, r: seq<Event>)
    requires Canonical(p) == Canonical(o + q)
    ensures Canonical(p + r) == Canonical(o + (q + r))
  {
    CanonicalAppend(p, r);
    CanonicalAppend(o, q + r);
    CanonicalAppend(o, q);
    CanonicalAppend(q, r);
    ConcatAssoc(Canonical(o), Canonical(q), Canonical(r));
  }

  lemma ConcatAssoc(a: seq<Event>, b: seq<Event>, c: seq<Event>)
    ensures a + (b + c) == (a + b) + c
  {
  }

  /** The chunks joined into one input. */
  function Concat(chunks: seq<seq<byte>>): (s: seq<byte>)
  {
    if chunks == [] then [] else chunks[0] + Concat(chunks[1..])
  }

  /** Feeding the chunks one by one is feeding their concatenation, up to fragmentation. */
  lemma {:induction false} FeedAllIsFeed(c: Core, chunks: seq<seq<byte>>)
    requires WellFormed(c)
    ensures FeedAll(c, chunks).core == Feed(c, Concat(chunks)).core
    ensures Canonical(FeedAll(c, chunks).emitted) == Canonical(Feed(c, Concat(chunks)).emitted)
    decreases |chunks|
  {
    if chunks != [] {
      var first := Feed(c, chunks[0]);
      var rest := FeedAll(first.core, chunks[1..]);
      FeedAllIsFeed(first.core, chunks[1..]);
      FeedSplit(c, chunks[0], Concat(chunks[1..]));
      assert SplitAgrees(c, chunks[0], Concat(chunks[1..]));
      CanonicalAppend(first.emitted, rest.emitted);
      CanonicalAppend(first.emitted, Feed(first.core, Concat(chunks[1..])).emitted);
    }
  }

  /**
   * However the input is cut into chunks, the parser sends the same events
   * up to the fragmentation of names: the same completions in the same order,
   * and the same name bytes, interleaved with them in the same way.
   */
  lemma ChunkSplitInvariance(chunks: seq<seq<byte>>)
    ensures Canonical(Transcript(chunks)) == Canonical(Transcript([Concat(chunks)]))
    ensures Completions(Transcript(chunks)) == Completions(Transcript([Concat(chunks)]))
    ensures Spelling(Transcript(chunks)) == Spelling(Transcript([Concat(chunks)]))
  {
    var whole := Concat(chunks);
    var t := FeedAll(Initial, chunks);
    var u := FeedAll(Initial, [whole]);
    FeedAllIsFeed(Initial, chunks);
    FeedAllIsFeed(Initial, [whole]);
    assert Concat([whole]) == whole + Concat([]);
    assert whole + [] == whole;
    assert t.core == u.core;
    var fin := Finished(t.core).emitted;
    CanonicalAppend(t.emitted, fin);
    CanonicalAppend(u.emitted, fin);
    SameUpToFragmentation(Transcript(chunks), Transcript([whole]));
  }
}

=== FILE: lexical.dfy ===
/**
 * Byte-level vocabulary of the symbol text: bytes, 32-bit field values, the
 * two digit tables, the digit-folding arithmetic of numeric fields and the
 * spans the scanners look for (a run of digits, a run of non-digits, the rest
 * of a line).
 */
module Lexical {

  /** One input byte. */
  type byte = x: int | 0 <= x < 0x100

  /** An unsigned 32-bit value, the width of every numeric field. */
  type u32 = x: int | 0 <= x < 0x1_0000_0000

  const U32_MODULUS: nat := 0x1_0000_0000

  /** Table entry of a byte that is not a digit. */
  const NOT_DIGIT: byte := 0xff

  const NEWLINE: byte := '\n' as int
  const CARRIAGE_RETURN: byte := '\r' as int
  const CHAR_0: byte := '0' as int
  const CHAR_9: byte := '9' as int
  const CHAR_LOWER_A: byte := 'a' as int
  const CHAR_LOWER_F: byte := 'f' as int
  const CHAR_F: byte := 'F' as int
  const CHAR_I: byte := 'I' as int
  const CHAR_P: byte := 'P' as int
  const CHAR_U: byte := 'U' as int

  // ---------------------------------------------------------------------------
  // Digit tables
  // ---------------------------------------------------------------------------

  /** Entry `b` of the decimal table: the digit value of '0'..'9', NOT_DIGIT otherwise. */
  function DecDigit(b: byte): (d: byte)
  {
    if CHAR_0 <= b <= CHAR_9 then b - CHAR_0 else NOT_DIGIT
  }

  /**
   * Entry `b` of the hexadecimal table: the decimal table with the lower-case
   * letters 'a'..'f' added as 10..15.
   */
  function HexDigit(b: byte): (d: byte)
    ensures d == NOT_DIGIT || d < 16
    ensures DecDigit(b) != NOT_DIGIT ==> d == DecDigit(b) < 10
    ensures d != NOT_DIGIT <==> (CHAR_0 <= b <= CHAR_9 || CHAR_LOWER_A <= b <= CHAR_LOWER_F)
    ensures 'A' as int <= b <= 'F' as int ==> d == NOT_DIGIT
  {
    if CHAR_LOWER_A <= b <= CHAR_LOWER_F then b - CHAR_LOWER_A + 10 else DecDigit(b)
  }

  /** Builds the decimal table the way the source's constant initialiser does. */
  method BuildDecTable() returns (table: seq<byte>)
    ensures |table| == 256
    ensures forall b: byte :: table[b] == DecDigit(b)
    ensures forall b: byte :: table[b] != NOT_DIGIT ==> table[b] < 10
  {
    var output := new byte[256](_ => NOT_DIGIT);
    var i: int := CHAR_0;
    while i <= CHAR_9
      invariant CHAR_0 <= i <= CHAR_9 + 1
      invariant forall b: byte :: output[b] == if CHAR_0 <= b < i then b - CHAR_0 else NOT_DIGIT
    {
      output[i] := i - CHAR_0;
      i := i + 1;
    }
    table := output[..];
  }

  /** Builds the hexadecimal table: a copy of the decimal one, then 'a'..'f'. */
  method BuildHexTable() returns (table: seq<byte>)
    ensures |table| == 256
    ensures forall b: byte :: table[b] == HexDigit(b)
  {
    var dec := BuildDecTable();
    var output := new byte[256](k => if 0 <= k < |dec| then dec[k] else NOT_DIGIT);
    var i: int := CHAR_LOWER_A;
    while i <= CHAR_LOWER_F
      invariant CHAR_LOWER_A <= i <= CHAR_LOWER_F + 1
      invariant forall b: byte :: output[b] == if CHAR_LOWER_A <= b < i then b - CHAR_LOWER_A + 10 else DecDigit(b)
    {
      output[i] := i - CHAR_LOWER_A + 0x0a;
      i := i + 1;
    }
    table := output[..];
  }

  // ---------------------------------------------------------------------------
  // Numeric fields
  // ---------------------------------------------------------------------------

  /** The base of a numeric field: hexadecimal fields use the hex table, decimal ones the decimal table. */
  datatype Radix = Dec | Hex
  {
    function Base(): (b: nat)
    {
      if Hex? then 16 else 10
    }

    /** The table entry of `b` for this radix. */
    function Digit(b: byte): (d: byte)
      ensures d == NOT_DIGIT || d < Base()
    {
      if Hex? then HexDigit(b) else DecDigit(b)
    }

    predicate Accepts(b: byte)
    {
      Digit(b) != NOT_DIGIT
    }
  }

  predicate AllDigits(radix: Radix, ds: seq<byte>)
  {
    forall i :: 0 <= i < |ds| ==> radix.Accepts(ds[i])
  }

  /**
   * One digit step of the 32-bit accumulator, `v * base + d` wrapped to 32
   * bits. For hexadecimal fields the source writes `(v << 4) | d`, which for a
   * digit below 16 is the same value.
   */
  function Accumulate(radix: Radix, v: u32, d: nat): (w: u32)
  {
    (v * radix.Base() + d) % U32_MODULUS
  }

  /** The accumulator after folding the digits `ds`, most significant first, into `v`. */
  function Fold(radix: Radix, v: u32, ds: seq<byte>): (w: u32)
    requires AllDigits(radix, ds)
    decreases |ds|
  {
    if ds == [] then v else Fold(radix, Accumulate(radix, v, radix.Digit(ds[0])), ds[1..])
  }

  function Pow(b: nat, n: nat): (r: nat)
    ensures r >= 1 || b == 0
  {
    if n == 0 then 1 else b * Pow(b, n - 1)
  }

  /** The unbounded positional value of the numeral `ds`. */
  function Value(radix: Radix, ds: seq<byte>): (n: nat)
    requires AllDigits(radix, ds)
    decreases |ds|
  {
    if ds == [] then 0
    else radix.Digit(ds[0]) * Pow(radix.Base(), |ds| - 1) + Value(radix, ds[1..])
  }

  /** Folding two runs of digits one after the other is folding their concatenation. */
  lemma {:induction false} FoldAppend(radix: Radix, v: u32, a: seq<byte>, b: seq<byte>)
    requires AllDigits(radix, a) && AllDigits(radix, b)
    ensures AllDigits(radix, a + b)
    ensures Fold(radix, Fold(radix, v, a), b) == Fold(radix, v, a + b)
    decreases |a|
  {
    assert AllDigits(radix, a + b) by {
      forall i | 0 <= i < |a + b| ensures radix.Accepts((a + b)[i]) {
        if i < |a| { assert (a + b)[i] == a[i]; } else { assert (a + b)[i] == b[i - |a|]; }
      }
    }
    if a != [] {
      assert (a + b)[1..] == a[1..] + b;
      assert AllDigits(radix, a[1..]) by {
        forall i | 0 <= i < |a[1..]| ensures radix.Accepts(a[1..][i]) { assert a[1..][i] == a[i + 1]; }
      }
      FoldAppend(radix, Accumulate(radix, v, radix.Digit(a[0])), a[1..], b);
    } else {
      assert a + b == b;
    }
  }

  /**
   * A numeral cut by a chunk boundary: the digits at the front of `x + y` are
   * all of `x` followed by those at the front of `y`, and folding them is
   * folding `x` and then carrying on with the digits of `y`.
   */
  lemma FoldAcross(radix: Radix, v: u32, x: seq<byte>, y: seq<byte>)
    requires AllDigits(radix, x)
    ensures LeadingDigits(radix, x + y) == |x| + LeadingDigits(radix, y)
    ensures Fold(radix, v, (x + y)[..LeadingDigits(radix, x + y)])
            == Fold(radix, Fold(radix, v, x), y[..LeadingDigits(radix, y)])
  {
    LeadingDigitsOf(radix, x, []);
    assert x + [] == x;
    LeadingDigitsSplit(radix, x, y);
    var m := LeadingDigits(radix, y);
    assert (x + y)[..|x| + m] == x + y[..m];
    FoldAppend(radix, v, x, y[..m]);
  }

  /** Appending one digit to a folded numeral is one more accumulator step. */
  lemma FoldSnoc(radix: Radix, v: u32, ds: seq<byte>, b: byte)
    requires AllDigits(radix, ds) && radix.Accepts(b)
    ensures AllDigits(radix, ds + [b])
    ensures Fold(radix, v, ds + [b]) == Accumulate(radix, Fold(radix, v, ds), radix.Digit(b))
  {
    FoldAppend(radix, v, ds, [b]);
    assert [b][1..] == [];
  }

  lemma ModShift(x: int, q: int)
    ensures (x + q * U32_MODULUS) % U32_MODULUS == x % U32_MODULUS
  {
  }

  /** Reducing a factor modulo 2^32 before scaling does not change the result modulo 2^32. */
  lemma MulMod(a: nat, k: nat, c: nat)
    ensures ((a % U32_MODULUS) * k + c) % U32_MODULUS == (a * k + c) % U32_MODULUS
  {
    var q := a / U32_MODULUS;
    var r := a % U32_MODULUS;
    assert a == q * U32_MODULUS + r;
    assert a * k == r * k + (q * k) * U32_MODULUS by {
      assert a * k == (q * U32_MODULUS + r) * k;
    }
    ModShift(r * k + c, q * k);
  }

  /** The arithmetic step of FoldIsValue: one digit, then the rest of the numeral. */
  lemma DigitStep(v: nat, base: nat, d: nat, p: nat, rest: nat, w: nat, total: nat, value: nat)
    requires w == (v * base + d) % U32_MODULUS
    requires total == base * p && value == d * p + rest
    ensures (w * p + rest) % U32_MODULUS == (v * total + value) % U32_MODULUS
  {
    MulMod(v * base + d, p, rest);
    assert (v * base + d) * p == v * (base * p) + d * p;
  }

  /**
   * The folded accumulator is the positional value of the numeral, continued
   * from `v`, reduced modulo 2^32: overflow wraps and nothing else is lost.
   */
  lemma {:induction false} FoldIsValue(radix: Radix, v: u32, ds: seq<byte>)
    requires AllDigits(radix, ds)
    ensures Fold(radix, v, ds) == (v * Pow(radix.Base(), |ds|) + Value(radix, ds)) % U32_MODULUS
    decreases |ds|
  {
    if ds != [] {
      var base := radix.Base();
      var d := radix.Digit(ds[0]);
      var w := Accumulate(radix, v, d);
      assert AllDigits(radix, ds[1..]) by {
        forall i | 0 <= i < |ds[1..]| ensures radix.Accepts(ds[1..][i]) { assert ds[1..][i] == ds[i + 1]; }
      }
      FoldIsValue(radix, w, ds[1..]);
      var p := Pow(base, |ds| - 1);
      var rest := Value(radix, ds[1..]);
      assert Fold(radix, v, ds) == Fold(radix, w, ds[1..]);
      DigitStep(v, base, d, p, rest, w, Pow(base, |ds|), Value(radix, ds));
    }
  }

  // ---------------------------------------------------------------------------
  // Spans the scanners look for
  // ---------------------------------------------------------------------------

  /** The length of the run of `radix` digits that `s` begins with. */
  function LeadingDigits(radix: Radix, s: seq<byte>): (n: nat)
    ensures n <= |s|
    ensures AllDigits(radix, s[..n])
    ensures n < |s| ==> !radix.Accepts(s[n])
    decreases |s|
  {
    if s == [] || !radix.Accepts(s[0]) then 0
    else
      var m := LeadingDigits(radix, s[1..]);
      assert s[..m + 1] == [s[0]] + s[1..][..m];
      1 + m
  }

  /** The number of bytes `s` begins with before its first hexadecimal digit. */
  function LeadingNonDigits(s: seq<byte>): (n: nat)
    ensures n <= |s|
    ensures forall i :: 0 <= i < n ==> !Hex.Accepts(s[i])
    ensures n < |s| ==> Hex.Accepts(s[n])
    decreases |s|
  {
    if s == [] || Hex.Accepts(s[0]) then 0
    else
      var m := LeadingNonDigits(s[1..]);
      assert forall i :: 1 <= i < m + 1 ==> s[i] == s[1..][i - 1];
      1 + m
  }

  /** The number of bytes `s` begins with before its first newline. */
  function LineLength(s: seq<byte>): (n: nat)
    ensures n <= |s|
    ensures NEWLINE !in s[..n]
    ensures n < |s| ==> s[n] == NEWLINE
    decreases |s|
  {
    if s == [] || s[0] == NEWLINE then 0
    else
      var m := LineLength(s[1..]);
      assert s[..m + 1] == [s[0]] + s[1..][..m];
      1 + m
  }

  /** A run of digits followed by a non-digit is exactly what LeadingDigits measures. */
  lemma {:induction false} LeadingDigitsOf(radix: Radix, ds: seq<byte>, rest: seq<byte>)
    requires AllDigits(radix, ds)
    requires rest != [] ==> !radix.Accepts(rest[0])
    ensures LeadingDigits(radix, ds + rest) == |ds|
    ensures (ds + rest)[..|ds|] == ds
    decreases |ds|
  {
    var s := ds + rest;
    assert s[..|ds|] == ds;
    if ds == [] {
      assert s == rest;
    } else {
      assert s[0] == ds[0];
      assert s[1..] == ds[1..] + rest;
      assert AllDigits(radix, ds[1..]) by {
        forall i | 0 <= i < |ds[1..]| ensures radix.Accepts(ds[1..][i]) { assert ds[1..][i] == ds[i + 1]; }
      }
      LeadingDigitsOf(radix, ds[1..], rest);
    }
  }

  /** A line without a newline, then the rest: LineLength finds the line's end. */
  lemma {:induction false} LineLengthOf(line: seq<byte>, rest: seq<byte>)
    requires NEWLINE !in line
    requires rest != [] ==> rest[0] == NEWLINE
    ensures LineLength(line + rest) == |line|
    ensures (line + rest)[..|line|] == line
    decreases |line|
  {
    var s := line + rest;
    assert s[..|line|] == line;
    if line == [] {
      assert s == rest;
    } else {
      assert s[0] == line[0];
      assert s[1..] == line[1..] + rest;
      assert NEWLINE !in line[1..] by {
        forall i | 0 <= i < |line[1..]| ensures line[1..][i] != NEWLINE { assert line[1..][i] == line[i + 1]; }
      }
      LineLengthOf(line[1..], rest);
    }
  }

  /** Bytes without hexadecimal digits, then a digit: LeadingNonDigits finds that digit. */
  lemma {:induction false} LeadingNonDigitsOf(gap: seq<byte>, rest: seq<byte>)
    requires forall i :: 0 <= i < |gap| ==> !Hex.Accepts(gap[i])
    requires rest != [] ==> Hex.Accepts(rest[0])
    ensures LeadingNonDigits(gap + rest) == |gap|
    decreases |gap|
  {
    var s := gap + rest;
    if gap == [] {
      assert s == rest;
    } else {
      assert s[0] == gap[0];
      assert s[1..] == gap[1..] + rest;
      LeadingNonDigitsOf(gap[1..], rest);
    }
  }

  /**
   * A span measured across a chunk boundary: if the run ends inside `x` it
   * is the run of `x`; otherwise it continues with the run `y` begins with.
   */
  lemma {:induction false} LeadingDigitsSplit(radix: Radix, x: seq<byte>, y: seq<byte>)
    ensures LeadingDigits(radix, x + y)
            == if LeadingDigits(radix, x) < |x| then LeadingDigits(radix, x) else |x| + LeadingDigits(radix, y)
    decreases |x|
  {
    if x == [] {
      assert x + y == y;
    } else {
      assert (x + y)[0] == x[0];
      assert (x + y)[1..] == x[1..] + y;
      LeadingDigitsSplit(radix, x[1..], y);
    }
  }

  lemma {:induction false} LineLengthSplit(x: seq<byte>, y: seq<byte>)
    ensures LineLength(x + y) == if LineLength(x) < |x| then LineLength(x) else |x| + LineLength(y)
    decreases |x|
  {
    if x == [] {
      assert x + y == y;
    } else {
      assert (x + y)[0] == x[0];
      assert (x + y)[1..] == x[1..] + y;
      LineLengthSplit(x[1..], y);
    }
  }

  lemma {:induction false} LeadingNonDigitsSplit(x: seq<byte>, y: seq<byte>)
    ensures LeadingNonDigits(x + y)
            == if LeadingNonDigits(x) < |x| then LeadingNonDigits(x) else |x| + LeadingNonDigits(y)
    decreases |x|
  {
    if x == [] {
      assert x + y == y;
    } else {
      assert (x + y)[0] == x[0];
      assert (x + y)[1..] == x[1..] + y;
      LeadingNonDigitsSplit(x[1..], y);
    }
  }
}

=== FILE: machine.dfy ===
/**
 * The parser's state machine as values: the grammar positions, the events
 * the sink receives, the parser's four fields as one value (`Core`), what
 * each scanning routine does to them, and what feeding a chunk and finishing
 * the input do. The class in parser.dfy is proved to do exactly this.
 */
module Machine {
  import opened Lexical

  /** The four kinds of record the parser reports. */
  datatype Record = Line | Func | File | Public

  /**
   * The grammar position. The source numbers its 23 positions in one flat
   * enumeration; here a position inside a record is the record and the index
   * of the field being scanned, which makes "the next position" arithmetic.
   * `Ordinal` recovers the source's numbering.
   */
  datatype State =
    | Start
    | Skip
    | FuncOrFile
    /** `Func`, `File` or `Public`: the keyword is being skipped. */
    | Keyword(record: Record)
    /** Scanning field `index` of the record, e.g. `LineHexAddr` is `Field(Line, 0)`. */
    | Field(record: Record, index: nat)
    /** `LineEnd`, `FuncEnd`, `FileEnd` or `PublicEnd`: the record is complete. */
    | End(record: Record)

  const LineHexAddr: State := Field(Line, 0)
  const LineHexSize: State := Field(Line, 1)
  const LineDecLine: State := Field(Line, 2)
  const LineDecFile: State := Field(Line, 3)
  const FuncHexAddr: State := Field(Func, 0)
  const FuncHexSize: State := Field(Func, 1)
  const FuncHexParams: State := Field(Func, 2)
  const FuncStrName: State := Field(Func, 3)
  const FileDecIndex: State := Field(File, 0)
  const FileStrName: State := Field(File, 1)
  const PublicHexAddr: State := Field(Public, 0)
  const PublicHexParams: State := Field(Public, 1)
  const PublicStrName: State := Field(Public, 2)

  /** How many numeric fields a record has; these are stored in the row. */
  function NumberCount(r: Record): (n: nat)
  {
    match r
    case Line => 4
    case Func => 3
    case File => 1
    case Public => 2
  }

  /** All fields of a record: the numbers, then a name for every record but a line record. */
  function FieldCount(r: Record): (n: nat)
  {
    if r == Line then NumberCount(r) else NumberCount(r) + 1
  }

  /** The radix of numeric field `i`: the line and file numbers are decimal, all else hex. */
  function RadixAt(r: Record, i: nat): (radix: Radix)
  {
    if r == File || (r == Line && 2 <= i) then Dec else Hex
  }

  /** The positions that exist: there is no line keyword, and fields stop at the record's last. */
  predicate ValidState(s: State)
  {
    match s
    case Keyword(r) => r != Line
    case Field(r, i) => i < FieldCount(r)
    case _ => true
  }

  /** The discriminant of the first field of each record in the source's enumeration. */
  function FirstOrdinal(r: Record): (n: nat)
  {
    match r
    case Line => 1
    case Func => 9
    case File => 15
    case Public => 19
  }

  /** The discriminant each position has in the source's enumeration. */
  function Ordinal(s: State): (n: nat)
  {
    match s
    case Start => 0
    case Skip => 6
    case FuncOrFile => 7
    case Keyword(r) => FirstOrdinal(r) - 1
    case Field(r, i) => FirstOrdinal(r) + i
    case End(r) => FirstOrdinal(r) + FieldCount(r)
  }

  /** The source's enumeration has exactly 23 positions, numbered 0 to 22 without gaps or repeats. */
  lemma OrdinalsAreTheEnumeration(s: State, t: State)
    requires ValidState(s) && ValidState(t)
    ensures Ordinal(s) <= 22
    ensures Ordinal(s) == Ordinal(t) ==> s == t
  {
  }

  predicate IsNumberState(s: State)
  {
    s.Field? && s.index < NumberCount(s.record)
  }

  predicate IsHexState(s: State)
  {
    IsNumberState(s) && RadixAt(s.record, s.index) == Hex
  }

  predicate IsDecState(s: State)
  {
    IsNumberState(s) && RadixAt(s.record, s.index) == Dec
  }

  /** The name field, the last of a function, file or public record. */
  predicate IsNameState(s: State)
  {
    s.Field? && NumberCount(s.record) <= s.index
  }

  /** The bare keyword states, waiting for the first digit of the record's first field. */
  predicate IsKeywordState(s: State)
  {
    s.Keyword?
  }

  predicate IsEndState(s: State)
  {
    s.End?
  }

  /** The states the source ever advances with `next()`. */
  predicate HasNext(s: State)
  {
    s.Keyword? || s.Field?
  }

  /**
   * The position after `s` within its record: the source's
   * "discriminant plus one", defined only where the source uses it.
   */
  function Next(s: State): (r: State)
    requires ValidState(s) && HasNext(s)
    ensures (r.Field? || r.End?) && ValidState(r) && r.record == s.record
  {
    match s
    case Keyword(rec) => Field(rec, 0)
    case Field(rec, i) => if i + 1 < FieldCount(rec) then Field(rec, i + 1) else End(rec)
  }

  /** `next()` is the successor in the source's enumeration, and stays inside the record. */
  lemma NextIsSuccessor(s: State)
    requires ValidState(s) && HasNext(s)
    ensures Ordinal(Next(s)) == Ordinal(s) + 1
    ensures !Next(s).Keyword? && Next(s).record == s.record
  {
  }

  /** The radix of the field a numeric state scans. */
  function RadixOf(s: State): (radix: Radix)
    requires IsNumberState(s)
  {
    RadixAt(s.record, s.index)
  }

  /** The number of fields of the current record already stored in the row. */
  function Committed(s: State): (n: nat)
  {
    match s
    case Field(_, i) => i
    case End(r) => NumberCount(r)
    case _ => 0
  }

  /**
   * A measure that every step which consumes no byte lowers: a pending
   * completion goes back to Start, Start and the keyword states go on to a
   * scanning state.
   */
  function Rank(s: State): (k: nat)
  {
    if IsEndState(s) then 2 else if s.Start? || IsKeywordState(s) then 1 else 0
  }

  /** What the sink receives. */
  datatype Event =
    | OnLine(addr: u32, size: u32, line: u32, fileIndex: u32)
    | OnFunc(addr: u32, size: u32, params: u32)
    | OnFile(index: u32)
    | OnPublic(addr: u32, params: u32)
    | OnStrValue(value: seq<byte>)

  /** The parser's fields `state`, `int_value`, `row` and `row_pos`. */
  datatype Core = Core(state: State, intValue: u32, row: seq<u32>, rowPos: nat)

  /**
   * The invariant of the parser: four row slots, the cursor counts exactly
   * the fields committed in the current record (so it indexes the row
   * whenever a field is scanned), and the accumulator is zero outside the
   * numeric states.
   */
  predicate WellFormed(c: Core)
  {
    ValidState(c.state)
    && |c.row| == 4
    && c.rowPos == Committed(c.state)
    && (!IsNumberState(c.state) ==> c.intValue == 0)
  }

  /** A freshly constructed parser. */
  const Initial: Core := Core(Start, 0, [0, 0, 0, 0], 0)

  /** What one scanning routine did: the new fields, the events it sent and how many bytes it consumed. */
  datatype Outcome = Outcome(core: Core, emitted: seq<Event>, used: nat)

  /** The fields and the events after a whole chunk, or after the end of input. */
  datatype Trace = Trace(core: Core, emitted: seq<Event>)

  // ---------------------------------------------------------------------------
  // The scanning routines, on the unconsumed rest `s` of the chunk
  // ---------------------------------------------------------------------------

  /** `parse_start`: a hex digit begins a line record and is not consumed; 'F' and 'P' begin keywords. */
  function ClassifyLine(c: Core, s: seq<byte>): (r: Outcome)
    requires WellFormed(c) && c.state == Start && |s| > 0
    ensures WellFormed(r.core) && r.emitted == [] && r.used <= 1
    ensures r.used == 0 ==> r.core.state == LineHexAddr
  {
    if Hex.Accepts(s[0]) then Outcome(c.(state := LineHexAddr), [], 0)
    else if s[0] == CHAR_F then Outcome(c.(state := FuncOrFile), [], 1)
    else if s[0] == CHAR_P then Outcome(c.(state := Keyword(Public)), [], 1)
    else Outcome(c.(state := Skip), [], 1)
  }

  /** `parse_func_or_file`: the byte after 'F' tells FUNC from FILE. */
  function ClassifyKeyword(c: Core, s: seq<byte>): (r: Outcome)
    requires WellFormed(c) && c.state == FuncOrFile && |s| > 0
    ensures WellFormed(r.core) && r.emitted == [] && r.used == 1
  {
    if s[0] == CHAR_U then Outcome(c.(state := Keyword(Func)), [], 1)
    else if s[0] == CHAR_I then Outcome(c.(state := Keyword(File)), [], 1)
    else Outcome(c.(state := Skip), [], 1)
  }

  /** Stores a finished field in the row and moves on to the next field. */
  function Commit(c: Core, v: u32): (r: Core)
    requires WellFormed(c) && IsNumberState(c.state)
    ensures WellFormed(r) && r.rowPos == c.rowPos + 1 <= 4
  {
    Core(Next(c.state), 0, c.row[c.rowPos := v], c.rowPos + 1)
  }

  /**
   * `parse_hex` and `parse_dec`: the digits at the front of `s` are folded
   * into the accumulator; the first other byte ends the field, which is
   * committed, and that byte is consumed. Without such a byte the
   * accumulator is kept for the next chunk.
   */
  function ScanNumber(c: Core, s: seq<byte>): (r: Outcome)
    requires WellFormed(c) && IsNumberState(c.state) && |s| > 0
    ensures WellFormed(r.core) && r.emitted == [] && 0 < r.used <= |s|
  {
    var radix := RadixOf(c.state);
    var n := LeadingDigits(radix, s);
    if n < |s| then Outcome(Commit(c, Fold(radix, c.intValue, s[..n])), [], n + 1)
    else Outcome(c.(intValue := Fold(radix, c.intValue, s)), [], |s|)
  }

  /**
   * A field ended inside the chunk: a run of `n` digits and a delimiter. The
   * folded value is committed to the row slot under the cursor, the cursor
   * and the state advance, the accumulator returns to zero and exactly one
   * delimiter byte is consumed.
   */
  lemma ScanNumberCommits(c: Core, s: seq<byte>, n: nat)
    requires WellFormed(c) && IsNumberState(c.state)
    requires n < |s| && AllDigits(RadixOf(c.state), s[..n]) && !RadixOf(c.state).Accepts(s[n])
    ensures ScanNumber(c, s) == Outcome(Commit(c, Fold(RadixOf(c.state), c.intValue, s[..n])), [], n + 1)
    ensures Commit(c, Fold(RadixOf(c.state), c.intValue, s[..n])).intValue == 0
  {
    LeadingDigitsOf(RadixOf(c.state), s[..n], s[n..]);
    assert s[..n] + s[n..] == s;
  }

  /**
   * The chunk ended inside a field: the digits are folded into the
   * accumulator, which is kept, and nothing else changes.
   */
  lemma ScanNumberParks(c: Core, s: seq<byte>)
    requires WellFormed(c) && IsNumberState(c.state) && |s| > 0
    requires AllDigits(RadixOf(c.state), s)
    ensures ScanNumber(c, s) == Outcome(c.(intValue := Fold(RadixOf(c.state), c.intValue, s)), [], |s|)
  {
    LeadingDigitsOf(RadixOf(c.state), s, []);
    assert s + [] == s;
  }

  /**
   * `parse_str`: the bytes up to the newline are sent as one fragment and the
   * newline is consumed; without a newline the whole rest is sent and the
   * state stays.
   */
  function ScanName(c: Core, s: seq<byte>): (r: Outcome)
    requires WellFormed(c) && IsNameState(c.state) && |s| > 0
    ensures WellFormed(r.core) && |r.emitted| == 1 && 0 < r.used <= |s|
  {
    var n := LineLength(s);
    if n < |s| then Outcome(c.(state := Next(c.state)), [OnStrValue(s[..n])], n + 1)
    else Outcome(c, [OnStrValue(s)], |s|)
  }

  /** `skip_until_digit`: bytes up to the first hex digit are dropped; the digit is not consumed. */
  function SkipKeyword(c: Core, s: seq<byte>): (r: Outcome)
    requires WellFormed(c) && IsKeywordState(c.state)
    ensures WellFormed(r.core) && r.emitted == [] && r.used <= |s|
    ensures r.used == 0 && |s| > 0 ==> Rank(r.core.state) == 0
  {
    var n := LeadingNonDigits(s);
    if n < |s| then Outcome(c.(state := Next(c.state)), [], n)
    else Outcome(c, [], |s|)
  }

  /** `skip_past_newline`: bytes up to and including the newline are dropped. */
  function SkipLine(c: Core, s: seq<byte>): (r: Outcome)
    requires WellFormed(c) && c.state == Skip && |s| > 0
    ensures WellFormed(r.core) && r.emitted == [] && 0 < r.used <= |s|
  {
    var n := LineLength(s);
    if n < |s| then Outcome(c.(state := Start), [], n + 1)
    else Outcome(c, [], |s|)
  }

  /** The completion event of a finished record, read from the row. */
  function Completion(c: Core): (e: Event)
    requires IsEndState(c.state) && |c.row| == 4
  {
    match c.state.record
    case Line => OnLine(c.row[0], c.row[1], c.row[2], c.row[3])
    case Func => OnFunc(c.row[0], c.row[1], c.row[2])
    case File => OnFile(c.row[0])
    case Public => OnPublic(c.row[0], c.row[1])
  }

  /** `on_end`: back to Start with the cursor at 0; the row keeps its contents. */
  function Reset(c: Core): (r: Core)
  {
    c.(state := Start, rowPos := 0)
  }

  /** `on_line_end`, `on_func_end`, `on_file_end`, `on_public_end`: no byte is consumed. */
  function EndRecord(c: Core): (r: Outcome)
    requires WellFormed(c) && IsEndState(c.state)
    ensures WellFormed(r.core) && r.core.state == Start && r.used == 0
  {
    Outcome(Reset(c), [Completion(c)], 0)
  }

  /** Which routine a turn of the dispatch loop runs, by state. */
  lemma StepDispatch(c: Core, s: seq<byte>)
    requires WellFormed(c) && |s| > 0
    ensures c.state == Start ==> Step(c, s) == ClassifyLine(c, s)
    ensures c.state == FuncOrFile ==> Step(c, s) == ClassifyKeyword(c, s)
    ensures IsNumberState(c.state) ==> Step(c, s) == ScanNumber(c, s)
    ensures IsNameState(c.state) ==> Step(c, s) == ScanName(c, s)
    ensures IsKeywordState(c.state) ==> Step(c, s) == SkipKeyword(c, s)
    ensures IsEndState(c.state) ==> Step(c, s) == EndRecord(c)
    ensures c.state == Skip ==> Step(c, s) == SkipLine(c, s)
  {
  }

  /**
   * The arms of the source's dispatch match, by discriminant: which of the 23
   * positions run parse_hex, parse_dec, parse_str, skip_until_digit, a
   * completion, skip_past_newline, parse_start and parse_func_or_file. The
   * eight sets cover 0..22 without overlap, so the dispatch is exhaustive
   * and unambiguous.
   */
  lemma DispatchArms(s: State)
    requires ValidState(s)
    ensures IsHexState(s) <==> Ordinal(s) in {1, 2, 9, 10, 11, 19, 20}
    ensures IsDecState(s) <==> Ordinal(s) in {3, 4, 15}
    ensures IsNameState(s) <==> Ordinal(s) in {12, 16, 21}
    ensures IsKeywordState(s) <==> Ordinal(s) in {8, 14, 18}
    ensures IsEndState(s) <==> Ordinal(s) in {5, 13, 17, 22}
    ensures s == Start <==> Ordinal(s) == 0
    ensures s == Skip <==> Ordinal(s) == 6
    ensures s == FuncOrFile <==> Ordinal(s) == 7
  {
  }

  /**
   * One turn of the dispatch loop of `parse`. It keeps the invariant, never
   * consumes more than is there, and a turn that consumes nothing lowers the
   * rank, so the loop ends.
   */
  function Step(c: Core, s: seq<byte>): (r: Outcome)
    requires WellFormed(c) && |s| > 0
    ensures WellFormed(r.core)
    ensures r.used <= |s|
    ensures r.used == 0 ==> Rank(r.core.state) < Rank(c.state)
    ensures r.emitted != [] ==> IsEndState(c.state) || IsNameState(c.state)
  {
    if c.state == Start then ClassifyLine(c, s)
    else if c.state == FuncOrFile then ClassifyKeyword(c, s)
    else if IsNumberState(c.state) then ScanNumber(c, s)
    else if IsNameState(c.state) then ScanName(c, s)
    else if IsKeywordState(c.state) then SkipKeyword(c, s)
    else if IsEndState(c.state) then EndRecord(c)
    else SkipLine(c, s)
  }

  /** `parse`: dispatch until the chunk is used up. */
  function Feed(c: Core, s: seq<byte>): (r: Trace)
    requires WellFormed(c)
    ensures WellFormed(r.core)
    decreases |s|, Rank(c.state)
  {
    if s == [] then Trace(c, [])
    else
      var o := Step(c, s);
      var t := Feed(o.core, s[o.used..]);
      Trace(t.core, o.emitted + t.emitted)
  }

  /**
   * Feeding `s` to `c`, when `sent` is already out, ends in the fields of
   * `goal` with the events of `goal` sent.
   */
  predicate Leads(c: Core, s: seq<byte>, sent: seq<Event>, goal: Trace)
  {
    WellFormed(c) && Feed(c, s).core == goal.core && sent + Feed(c, s).emitted == goal.emitted
  }

  /** Feeding resumes after one turn of the dispatch loop with that turn's events sent. */
  lemma FeedResumes(c: Core, s: seq<byte>, sent: seq<Event>, goal: Trace)
    requires Leads(c, s, sent, goal) && |s| > 0
    ensures var o := Step(c, s); Leads(o.core, s[o.used..], sent + o.emitted, goal)
  {
    var o := Step(c, s);
    var t := Feed(o.core, s[o.used..]);
    assert Feed(c, s) == Trace(t.core, o.emitted + t.emitted);
    assert sent + (o.emitted + t.emitted) == (sent + o.emitted) + t.emitted;
  }

  /**
   * `finish`: a record whose last field is complete is reported; in every
   * other state nothing is sent and nothing changes.
   */
  function Finished(c: Core): (r: Trace)
    requires WellFormed(c)
    ensures WellFormed(r.core) && !IsEndState(r.core.state)
    ensures r.emitted != [] <==> IsEndState(c.state)
    ensures |r.emitted| <= 1
    ensures !IsEndState(c.state) ==> r.core == c
  {
    if IsEndState(c.state) then Trace(Reset(c), [Completion(c)]) else Trace(c, [])
  }

  /** Feeding the chunks one after the other. */
  function FeedAll(c: Core, chunks: seq<seq<byte>>): (r: Trace)
    requires WellFormed(c)
    ensures WellFormed(r.core)
    decreases |chunks|
  {
    if chunks == [] then Trace(c, [])
    else
      var first := Feed(c, chunks[0]);
      var rest := FeedAll(first.core, chunks[1..]);
      Trace(rest.core, first.emitted + rest.emitted)
  }

  /** Everything the sink receives from a fresh parser fed `chunks` and then finished. */
  function Transcript(chunks: seq<seq<byte>>): (es: seq<Event>)
  {
    var t := FeedAll(Initial, chunks);
    t.emitted + Finished(t.core).emitted
  }
}

=== FILE: parser.dfy ===
/**
 * The streaming parser as the source writes it: an object whose four fields
 * are updated in place by `Parse` and `Finish`, with a row of four 32-bit
 * slots in a fixed-size array. The sink is replaced by `events`, the log of
 * everything it has been sent. Every method is proved to do what the
 * functions of module Machine prescribe.
 */
module StreamParser {
  import opened Lexical
  import opened Machine

  class Parser {
    var state: State
    var intValue: u32
    const row: array<u32>
    var rowPos: nat
    /** Everything sent to the sink so far, in order. */
    var events: seq<Event>

    ghost predicate Valid()
      reads this, row
    {
      row.Length == 4 && WellFormed(Snapshot())
    }

    /** The four fields as a value. */
    ghost function Snapshot(): Core
      reads this, row
    {
      Core(state, intValue, row[..], rowPos)
    }

    constructor ()
      ensures Valid() && fresh(row)
      ensures Snapshot() == Initial && events == []
    {
      state := Start;
      intValue := 0;
      row := new u32[4](_ => 0);
      rowPos := 0;
      events := [];
      new;
      assert row[..] == [0, 0, 0, 0];
    }

    /** Feeds one chunk: the dispatch loop. */
    method Parse(chunk: seq<byte>)
      requires Valid()
      modifies this, row
      ensures Valid()
      ensures Snapshot() == Feed(old(Snapshot()), chunk).core
      ensures events == old(events) + Feed(old(Snapshot()), chunk).emitted
    {
      ghost var whole := Feed(old(Snapshot()), chunk);
      ghost var goal := Trace(whole.core, old(events) + whole.emitted);
      var offset: nat := 0;
      assert chunk[offset..] == chunk;
      while offset < |chunk|
        invariant Valid() && offset <= |chunk|
        invariant Leads(Snapshot(), chunk[offset..], events, goal)
        decreases |chunk| - offset, Rank(state)
      {
        offset := Advance(chunk, offset, goal);
      }
      assert chunk[offset..] == [];
    }

    /** One turn of the dispatch loop: what is left of the chunk still leads to the same end. */
    method Advance(chunk: seq<byte>, offset: nat, ghost goal: Trace) returns (next: nat)
      requires Valid() && offset < |chunk|
      requires Leads(Snapshot(), chunk[offset..], events, goal)
      modifies this, row
      ensures Valid() && offset <= next <= |chunk|
      ensures Leads(Snapshot(), chunk[next..], events, goal)
      ensures next == offset ==> Rank(state) < old(Rank(state))
    {
      FeedResumes(Snapshot(), chunk[offset..], events, goal);
      next := Turn(chunk, offset);
      assert chunk[offset..][next - offset..] == chunk[next..];
    }

    /** One turn of the dispatch loop in `parse`: the routine for the current state. */
    method Turn(chunk: seq<byte>, offset: nat) returns (next: nat)
      requires Valid() && offset < |chunk|
      modifies this, row
      ensures Valid()
      ensures var o := Step(old(Snapshot()), chunk[offset..]);
              Snapshot() == o.core && events == old(events) + o.emitted && next == offset + o.used
    {
      ghost var before := Snapshot();
      StepDispatch(before, chunk[offset..]);
      next := offset;
      match state {
        case Start => next := ParseStart(chunk, offset);
        case FuncOrFile => next := ParseFuncOrFile(chunk, offset);
        case Field(_, _) =>
          if IsHexState(state) {
            next := ParseHex(chunk, offset);
          } else if IsDecState(state) {
            next := ParseDec(chunk, offset);
          } else {
            next := ParseStr(chunk, offset);
          }
        case Keyword(_) => next := SkipUntilDigit(chunk, offset);
        case End(Line) => OnLineEnd();
        case End(Func) => OnFuncEnd();
        case End(File) => OnFileEnd();
        case End(Public) => OnPublicEnd();
        case Skip => next := SkipPastNewline(chunk, offset);
      }
    }

    /** Signals the end of input: a record waiting in an end state is reported. */
    method Finish()
      requires Valid()
      modifies this
      ensures Valid()
      ensures Snapshot() == Finished(old(Snapshot())).core
      ensures events == old(events) + Finished(old(Snapshot())).emitted
    {
      match state {
        case End(Line) => OnLineEnd();
        case End(Func) => OnFuncEnd();
        case End(File) => OnFileEnd();
        case End(Public) => OnPublicEnd();
        case _ =>
      }
    }

    method ParseStart(chunk: seq<byte>, offset: nat) returns (next: nat)
      requires Valid() && state == Start && offset < |chunk|
      modifies this
      ensures Valid() && events == old(events)
      ensures var o := ClassifyLine(old(Snapshot()), chunk[offset..]);
              Snapshot() == o.core && next == offset + o.used
    {
      var ch := chunk[offset];
      if HexDigit(ch) != NOT_DIGIT {
        state := LineHexAddr;
        // The first byte is the first digit of the address.
        return offset;
      }
      state := if ch == CHAR_F then FuncOrFile else if ch == CHAR_P then Keyword(Public) else Skip;
      next := offset + 1;
    }

    method ParseFuncOrFile(chunk: seq<byte>, offset: nat) returns (next: nat)
      requires Valid() && state == FuncOrFile && offset < |chunk|
      modifies this
      ensures Valid() && events == old(events)
      ensures var o := ClassifyKeyword(old(Snapshot()), chunk[offset..]);
              Snapshot() == o.core && next == offset + o.used
    {
      var ch := chunk[offset];
      state := if ch == CHAR_U then Keyword(Func) else if ch == CHAR_I then Keyword(File) else Skip;
      next := offset + 1;
    }

    method ParseHex(chunk: seq<byte>, offset: nat) returns (next: nat)
      requires Valid() && IsHexState(state) && offset < |chunk|
      modifies this, row
      ensures Valid() && events == old(events)
      ensures var o := ScanNumber(old(Snapshot()), chunk[offset..]);
              Snapshot() == o.core && next == offset + o.used
    {
      ghost var start := Snapshot();
      ghost var s := chunk[offset..];
      var v := intValue;
      for i := offset to |chunk|
        invariant unchanged(this) && unchanged(row)
        invariant AllDigits(Hex, s[..i - offset])
        invariant v == Fold(Hex, start.intValue, s[..i - offset])
      {
        var d := HexDigit(chunk[i]);
        if d == NOT_DIGIT {
          ScanNumberCommits(start, s, i - offset);
          EndField(v);
          return i + 1;
        }
        FoldSnoc(Hex, start.intValue, s[..i - offset], chunk[i]);
        assert s[..i + 1 - offset] == s[..i - offset] + [chunk[i]];
        assert (v * 16 + d) % U32_MODULUS == Accumulate(Hex, v, Hex.Digit(chunk[i]));
        v := (v * 16 + d) % U32_MODULUS;
      }
      assert s[..|chunk| - offset] == s;
      ScanNumberParks(start, s);
      intValue := v;
      return |chunk|;
    }

    method ParseDec(chunk: seq<byte>, offset: nat) returns (next: nat)
      requires Valid() && IsDecState(state) && offset < |chunk|
      modifies this, row
      ensures Valid() && events == old(events)
      ensures var o := ScanNumber(old(Snapshot()), chunk[offset..]);
              Snapshot() == o.core && next == offset + o.used
    {
      ghost var start := Snapshot();
      ghost var s := chunk[offset..];
      var v := intValue;
      for i := offset to |chunk|
        invariant unchanged(this) && unchanged(row)
        invariant AllDigits(Dec, s[..i - offset])
        invariant v == Fold(Dec, start.intValue, s[..i - offset])
      {
        var d := DecDigit(chunk[i]);
        if d == NOT_DIGIT {
          ScanNumberCommits(start, s, i - offset);
          EndField(v);
          return i + 1;
        }
        FoldSnoc(Dec, start.intValue, s[..i - offset], chunk[i]);
        assert s[..i + 1 - offset] == s[..i - offset] + [chunk[i]];
        assert (v * 10 + d) % U32_MODULUS == Accumulate(Dec, v, Dec.Digit(chunk[i]));
        v := (v * 10 + d) % U32_MODULUS;
      }
      assert s[..|chunk| - offset] == s;
      ScanNumberParks(start, s);
      intValue := v;
      return |chunk|;
    }

    /**
     * What `parse_hex` and `parse_dec` both do when a field ends: the value is
     * stored in the row slot under the cursor, the cursor and the state
     * advance and the accumulator is reset.
     */
    method EndField(v: u32)
      requires Valid() && IsNumberState(state)
      modifies this, row
      ensures Valid() && events == old(events)
      ensures Snapshot() == Commit(old(Snapshot()), v)
    {
      row[rowPos] := v;
      rowPos := rowPos + 1;
      intValue := 0;
      state := Next(state);
    }

    method ParseStr(chunk: seq<byte>, offset: nat) returns (next: nat)
      requires Valid() && IsNameState(state) && offset < |chunk|
      modifies this
      ensures Valid()
      ensures var o := ScanName(old(Snapshot()), chunk[offset..]);
              Snapshot() == o.core && events == old(events) + o.emitted && next == offset + o.used
    {
      ghost var start := Snapshot();
      for i := offset to |chunk|
        invariant unchanged(this) && unchanged(row)
        invariant NEWLINE !in chunk[offset..i]
      {
        if chunk[i] == NEWLINE {
          LineLengthOf(chunk[offset..i], chunk[i..]);
          assert chunk[offset..i] + chunk[i..] == chunk[offset..];
          state := Next(state);
          events := events + [OnStrValue(chunk[offset..i])];
          return i + 1;
        }
        assert chunk[offset..i + 1] == chunk[offset..i] + [chunk[i]];
      }
      LineLengthOf(chunk[offset..], []);
      assert chunk[offset..] + [] == chunk[offset..];
      events := events + [OnStrValue(chunk[offset..])];
      return |chunk|;
    }

    method SkipUntilDigit(chunk: seq<byte>, offset: nat) returns (next: nat)
      requires Valid() && IsKeywordState(state) && offset < |chunk|
      modifies this
      ensures Valid() && events == old(events)
      ensures var o := SkipKeyword(old(Snapshot()), chunk[offset..]);
              Snapshot() == o.core && next == offset + o.used
    {
      ghost var start := Snapshot();
      for i := offset to |chunk|
        invariant unchanged(this) && unchanged(row)
        invariant forall k :: offset <= k < i ==> !Hex.Accepts(chunk[k])
      {
        if HexDigit(chunk[i]) != NOT_DIGIT {
          LeadingNonDigitsOf(chunk[offset..i], chunk[i..]);
          assert chunk[offset..i] + chunk[i..] == chunk[offset..];
          state := Next(state);
          return i;
        }
      }
      LeadingNonDigitsOf(chunk[offset..], []);
      assert chunk[offset..] + [] == chunk[offset..];
      return |chunk|;
    }

    method SkipPastNewline(chunk: seq<byte>, offset: nat) returns (next: nat)
      requires Valid() && state == Skip && offset < |chunk|
      modifies this
      ensures Valid() && events == old(events)
      ensures var o := SkipLine(old(Snapshot()), chunk[offset..]);
              Snapshot() == o.core && next == offset + o.used
    {
      ghost var start := Snapshot();
      for i := offset to |chunk|
        invariant unchanged(this) && unchanged(row)
        invariant NEWLINE !in chunk[offset..i]
      {
        if chunk[i] == NEWLINE {
          LineLengthOf(chunk[offset..i], chunk[i..]);
          assert chunk[offset..i] + chunk[i..] == chunk[offset..];
          state := Start;
          return i + 1;
        }
        assert chunk[offset..i + 1] == chunk[offset..i] + [chunk[i]];
      }
      LineLengthOf(chunk[offset..], []);
      assert chunk[offset..] + [] == chunk[offset..];
      return |chunk|;
    }

    method OnLineEnd()
      requires Valid() && state == End(Line)
      modifies this
      ensures Valid()
      ensures Snapshot() == Reset(old(Snapshot()))
      ensures events == old(events) + [Completion(old(Snapshot()))]
    {
      OnEnd();
      events := events + [OnLine(row[0], row[1], row[2], row[3])];
    }

    method OnFuncEnd()
      requires Valid() && state == End(Func)
      modifies this
      ensures Valid()
      ensures Snapshot() == Reset(old(Snapshot()))
      ensures events == old(events) + [Completion(old(Snapshot()))]
    {
      OnEnd();
      events := events + [OnFunc(row[0], row[1], row[2])];
    }

    method OnFileEnd()
      requires Valid() && state == End(File)
      modifies this
      ensures Valid()
      ensures Snapshot() == Reset(old(Snapshot()))
      ensures events == old(events) + [Completion(old(Snapshot()))]
    {
      OnEnd();
      events := events + [OnFile(row[0])];
    }

    method OnPublicEnd()
      requires Valid() && state == End(Public)
      modifies this
      ensures Valid()
      ensures Snapshot() == Reset(old(Snapshot()))
      ensures events == old(events) + [Completion(old(Snapshot()))]
    {
      OnEnd();
      events := events + [OnPublic(row[0], row[1])];
    }

    /** Back to Start with the cursor at 0; the row is not cleared. */
    method OnEnd()
      requires Valid() && IsEndState(state)
      modifies this
      ensures Valid() && events == old(events)
      ensures Snapshot() == Reset(old(Snapshot()))
    {
      rowPos := 0;
      state := Start;
    }
  }
}

=== FILE: records.dfy ===
/**
 * What the parser makes of whole lines of a symbol file: how the first byte
 * of a line selects the record, how each field is scanned, the event every
 * complete record produces, and the quirks of the line classification
 * (lines the parser skips, records it drops).
 */
module Records {
  import opened Lexical
  import opened Machine
  import opened Chunking

  /** The 32-bit value the parser reads from a run of digits: the numeral modulo 2^32. */
  function Number(radix: Radix, ds: seq<byte>): (w: u32)
    requires AllDigits(radix, ds)
  {
    Value(radix, ds) % U32_MODULUS
  }

  /** A field scanned from a zero accumulator holds the numeral's value, wrapped to 32 bits. */
  lemma FoldFromZero(radix: Radix, ds: seq<byte>)
    requires AllDigits(radix, ds)
    ensures Fold(radix, 0, ds) == Number(radix, ds)
  {
    FoldIsValue(radix, 0, ds);
  }

  /** `t` with the events `sent` sent before its own. */
  function Prepend(sent: seq<Event>, t: Trace): (r: Trace)
  {
    Trace(t.core, sent + t.emitted)
  }

  /** No byte of `s` is a hexadecimal digit. */
  predicate NoHexDigits(s: seq<byte>)
  {
    forall i :: 0 <= i < |s| ==> !Hex.Accepts(s[i])
  }

  // ---------------------------------------------------------------------------
  // One stage of a line at a time
  // ---------------------------------------------------------------------------

  /** A turn that sends `e`, ends in `d` and consumes `n` bytes: feeding goes on from there. */
  lemma FeedAfter(c: Core, s: seq<byte>, d: Core, e: seq<Event>, n: nat)
    requires WellFormed(c) && |s| > 0 && Step(c, s) == Outcome(d, e, n)
    ensures WellFormed(d) && n <= |s|
    ensures Feed(c, s) == Prepend(e, Feed(d, s[n..]))
  {
  }

  /** A turn that sends nothing, ends in `d` and consumes `n` bytes: feeding goes on from there. */
  lemma FeedQuiet(c: Core, s: seq<byte>, d: Core, n: nat)
    requires WellFormed(c) && |s| > 0 && Step(c, s) == Outcome(d, [], n)
    ensures WellFormed(d) && n <= |s|
    ensures Feed(c, s) == Feed(d, s[n..])
  {
  }

  /**
   * The first byte of a line selects the record, and the selection is
   * exclusive: a hex digit (left in place) starts a line record, 'F' a
   * function or file record, 'P' a public record, and any other byte makes
   * the parser drop the line. 'F' is not taken for a hex digit because the
   * tables only know the lower-case letters.
   */
  lemma LineClassification(c: Core, s: seq<byte>)
    requires WellFormed(c) && c.state == Start && |s| > 0
    ensures var o := Step(c, s);
            && (o.core.state == LineHexAddr <==> Hex.Accepts(s[0]))
            && (o.core.state == FuncOrFile <==> s[0] == CHAR_F)
            && (o.core.state == Keyword(Public) <==> s[0] == CHAR_P)
            && (o.core.state == Skip <==> !Hex.Accepts(s[0]) && s[0] != CHAR_F && s[0] != CHAR_P)
            && (o.used == 0 <==> Hex.Accepts(s[0]))
            && o.emitted == [] && o.core.row == c.row
  {
    StepDispatch(c, s);
  }

  /** The byte after 'F': 'U' for a function record, 'I' for a file record; anything else drops the line. */
  lemma KeywordClassification(c: Core, s: seq<byte>)
    requires WellFormed(c) && c.state == FuncOrFile && |s| > 0
    ensures var o := Step(c, s);
            && (o.core.state == Keyword(Func) <==> s[0] == CHAR_U)
            && (o.core.state == Keyword(File) <==> s[0] == CHAR_I)
            && (o.core.state == Skip <==> s[0] != CHAR_U && s[0] != CHAR_I)
            && o.used == 1 && o.emitted == [] && o.core.row == c.row
  {
    StepDispatch(c, s);
  }

  /**
   * The turns of the dispatch loop that consume no byte are exactly these
   * three: Start before a hex digit (it enters the address field of a line),
   * a keyword state before a hex digit (it enters the first field), and a
   * pending completion (it reports the record and goes back to Start).
   */
  lemma StallingSteps(c: Core, s: seq<byte>)
    requires WellFormed(c) && |s| > 0
    ensures var o := Step(c, s);
            && (o.used == 0 <==> ((c.state == Start || IsKeywordState(c.state)) && Hex.Accepts(s[0])) || IsEndState(c.state))
            && (o.used == 0 && c.state == Start ==> o.core.state == LineHexAddr)
            && (o.used == 0 && IsKeywordState(c.state) ==> o.core.state == Next(c.state))
            && (o.used == 0 && IsEndState(c.state) ==> o.core.state == Start)
  {
    StepDispatch(c, s);
    if IsKeywordState(c.state) && Hex.Accepts(s[0]) {
      assert [] + s == s;
      LeadingNonDigitsOf([], s);
    }
  }

  /**
   * What one turn sends. A pending completion sends its completion event and
   * nothing else; any other turn sends nothing or, in a name field, one name
   * fragment. A function, file or public record becomes complete only in the
   * turn that scans its name up to the newline, and that turn sends the last
   * fragment of the name: every fragment of a name is sent before the
   * record's completion event.
   */
  lemma EventsOfAStep(c: Core, s: seq<byte>)
    requires WellFormed(c) && |s| > 0
    ensures var o := Step(c, s);
            && (IsEndState(c.state) ==> o.emitted == [Completion(c)])
            && (!IsEndState(c.state) ==> o.emitted == [] || (IsNameState(c.state) && |o.emitted| == 1 && o.emitted[0].OnStrValue?))
            && (o.core.state.End? && o.core.state.record != Line && !c.state.End? ==>
                  && IsNameState(c.state) && o.core.state.record == c.state.record
                  && 0 < o.used && s[o.used - 1] == NEWLINE && o.emitted == [OnStrValue(s[..o.used - 1])])
  {
    StepDispatch(c, s);
  }

  /**
   * An empty chunk changes nothing: the dispatch loop runs no turn, so any
   * number of empty chunks leave the fields as they were and send nothing.
   */
  lemma {:induction false} EmptyChunksChangeNothing(c: Core, chunks: seq<seq<byte>>)
    requires WellFormed(c)
    requires forall i :: 0 <= i < |chunks| ==> chunks[i] == []
    ensures FeedAll(c, chunks) == Trace(c, [])
    decreases |chunks|
  {
    if chunks != [] {
      assert Feed(c, chunks[0]) == Trace(c, []);
      EmptyChunksChangeNothing(c, chunks[1..]);
    }
  }

  /** A line that starts with a hex digit: the digit stays for the address field. */
  lemma FeedLineStart(c: Core, s: seq<byte>)
    requires WellFormed(c) && c.state == Start && |s| > 0 && Hex.Accepts(s[0])
    ensures Feed(c, s) == Feed(c.(state := LineHexAddr), s)
  {
    StepDispatch(c, s);
    FeedQuiet(c, s, c.(state := LineHexAddr), 0);
    assert s[0..] == s;
  }

  /** A line that starts with anything else: its first byte is consumed and selects the state. */
  lemma FeedOtherStart(c: Core, b: byte, rest: seq<byte>, next: State)
    requires WellFormed(c) && c.state == Start && !Hex.Accepts(b)
    requires next == if b == CHAR_F then FuncOrFile else if b == CHAR_P then Keyword(Public) else Skip
    ensures Feed(c, [b] + rest) == Feed(c.(state := next), rest)
  {
    var s := [b] + rest;
    assert s[0] == b;
    StepDispatch(c, s);
    FeedQuiet(c, s, c.(state := next), 1);
    assert s[1..] == rest;
  }

  /** The byte after 'F' is consumed and selects the record, or the line is dropped. */
  lemma FeedKeyword(c: Core, b: byte, rest: seq<byte>, next: State)
    requires WellFormed(c) && c.state == FuncOrFile
    requires next == if b == CHAR_U then Keyword(Func) else if b == CHAR_I then Keyword(File) else Skip
    ensures Feed(c, [b] + rest) == Feed(c.(state := next), rest)
  {
    var s := [b] + rest;
    assert s[0] == b;
    StepDispatch(c, s);
    FeedQuiet(c, s, c.(state := next), 1);
    assert s[1..] == rest;
  }

  /** The rest of a keyword up to the first hex digit is dropped; the digit begins the first field. */
  lemma FeedGap(c: Core, gap: seq<byte>, rest: seq<byte>)
    requires WellFormed(c) && IsKeywordState(c.state) && NoHexDigits(gap)
    requires |rest| > 0 && Hex.Accepts(rest[0])
    ensures Feed(c, gap + rest) == Feed(c.(state := Next(c.state)), rest)
  {
    var s := gap + rest;
    LeadingNonDigitsOf(gap, rest);
    StepDispatch(c, s);
    FeedQuiet(c, s, c.(state := Next(c.state)), |gap|);
    assert s[|gap|..] == rest;
  }

  /**
   * A numeric field followed by a byte that is not one of its digits: the
   * digits are folded into the accumulator, the value is committed, and the
   * delimiter is consumed.
   */
  lemma FeedNumber(c: Core, ds: seq<byte>, sep: byte, rest: seq<byte>)
    requires WellFormed(c) && IsNumberState(c.state)
    requires AllDigits(RadixOf(c.state), ds) && !RadixOf(c.state).Accepts(sep)
    ensures Feed(c, ds + [sep] + rest) == Feed(Commit(c, Fold(RadixOf(c.state), c.intValue, ds)), rest)
  {
    var s := ds + [sep] + rest;
    assert s[..|ds|] == ds;
    assert s[|ds|] == sep;
    ScanNumberCommits(c, s, |ds|);
    StepDispatch(c, s);
    FeedQuiet(c, s, Commit(c, Fold(RadixOf(c.state), c.intValue, ds)), |ds| + 1);
    assert s[|ds| + 1..] == rest;
  }

  /**
   * Field `i` of record `r` scanned from the start: its value goes to row
   * slot `i` and the parser moves on to `next`, the position after it.
   */
  lemma FeedField(r: Record, i: nat, row: seq<u32>, ds: seq<byte>, sep: byte, rest: seq<byte>, next: State)
    requires i < NumberCount(r) && |row| == 4 && next == Next(Field(r, i))
    requires AllDigits(RadixAt(r, i), ds) && !RadixAt(r, i).Accepts(sep)
    ensures WellFormed(Core(Field(r, i), 0, row, i))
    ensures WellFormed(Core(next, 0, row[i := Number(RadixAt(r, i), ds)], i + 1))
    ensures Feed(Core(Field(r, i), 0, row, i), ds + [sep] + rest)
            == Feed(Core(next, 0, row[i := Number(RadixAt(r, i), ds)], i + 1), rest)
  {
    var c := Core(Field(r, i), 0, row, i);
    FeedNumber(c, ds, sep, rest);
    FoldFromZero(RadixAt(r, i), ds);
  }

  /** The address and size fields of a line record, both hexadecimal. */
  lemma LineHead(row: seq<u32>, x: seq<byte>, sx: byte, y: seq<byte>, sy: byte, rest: seq<byte>)
    requires |row| == 4
    requires AllDigits(Hex, x) && !Hex.Accepts(sx)
    requires AllDigits(Hex, y) && !Hex.Accepts(sy)
    ensures WellFormed(Core(LineHexAddr, 0, row, 0))
    ensures WellFormed(Core(LineDecLine, 0, row[0 := Number(Hex, x)][1 := Number(Hex, y)], 2))
    ensures Feed(Core(LineHexAddr, 0, row, 0), x + [sx] + (y + [sy] + rest))
            == Feed(Core(LineDecLine, 0, row[0 := Number(Hex, x)][1 := Number(Hex, y)], 2), rest)
  {
    var row1: seq<u32> := row[0 := Number(Hex, x)];
    FeedField(Line, 0, row, x, sx, y + [sy] + rest, LineHexSize);
    FeedField(Line, 1, row1, y, sy, rest, LineDecLine);
  }

  /** The line number and file index of a line record, both decimal; after them the record is complete. */
  lemma LineTail(row: seq<u32>, x: seq<byte>, sx: byte, y: seq<byte>, sy: byte, rest: seq<byte>)
    requires |row| == 4
    requires AllDigits(Dec, x) && !Dec.Accepts(sx)
    requires AllDigits(Dec, y) && !Dec.Accepts(sy)
    ensures WellFormed(Core(LineDecLine, 0, row, 2))
    ensures WellFormed(Core(End(Line), 0, row[2 := Number(Dec, x)][3 := Number(Dec, y)], 4))
    ensures Feed(Core(LineDecLine, 0, row, 2), x + [sx] + (y + [sy] + rest))
            == Feed(Core(End(Line), 0, row[2 := Number(Dec, x)][3 := Number(Dec, y)], 4), rest)
  {
    var row1: seq<u32> := row[2 := Number(Dec, x)];
    FeedField(Line, 2, row, x, sx, y + [sy] + rest, LineDecFile);
    FeedField(Line, 3, row1, y, sy, rest, End(Line));
  }

  /** The address and size fields of a function record. */
  lemma FuncHead(row: seq<u32>, x: seq<byte>, sx: byte, y: seq<byte>, sy: byte, rest: seq<byte>)
    requires |row| == 4
    requires AllDigits(Hex, x) && !Hex.Accepts(sx)
    requires AllDigits(Hex, y) && !Hex.Accepts(sy)
    ensures WellFormed(Core(FuncHexAddr, 0, row, 0))
    ensures WellFormed(Core(FuncHexParams, 0, row[0 := Number(Hex, x)][1 := Number(Hex, y)], 2))
    ensures Feed(Core(FuncHexAddr, 0, row, 0), x + [sx] + (y + [sy] + rest))
            == Feed(Core(FuncHexParams, 0, row[0 := Number(Hex, x)][1 := Number(Hex, y)], 2), rest)
  {
    var row1: seq<u32> := row[0 := Number(Hex, x)];
    FeedField(Func, 0, row, x, sx, y + [sy] + rest, FuncHexSize);
    FeedField(Func, 1, row1, y, sy, rest, FuncHexParams);
  }

  /** The parameter size and the name of a function record; after the name's newline the record is complete. */
  lemma FuncTail(row: seq<u32>, p: seq<byte>, sp: byte, name: seq<byte>, rest: seq<byte>)
    requires |row| == 4
    requires AllDigits(Hex, p) && !Hex.Accepts(sp) && NEWLINE !in name
    ensures WellFormed(Core(FuncHexParams, 0, row, 2))
    ensures WellFormed(Core(End(Func), 0, row[2 := Number(Hex, p)], 3))
    ensures Feed(Core(FuncHexParams, 0, row, 2), p + [sp] + (name + [NEWLINE] + rest))
            == Prepend([OnStrValue(name)], Feed(Core(End(Func), 0, row[2 := Number(Hex, p)], 3), rest))
  {
    FeedField(Func, 2, row, p, sp, name + [NEWLINE] + rest, FuncStrName);
    FeedName(Core(FuncStrName, 0, row[2 := Number(Hex, p)], 3), name, rest);
  }

  /** The address and parameter size fields of a public record; the name follows. */
  lemma PublicHead(row: seq<u32>, x: seq<byte>, sx: byte, y: seq<byte>, sy: byte, rest: seq<byte>)
    requires |row| == 4
    requires AllDigits(Hex, x) && !Hex.Accepts(sx)
    requires AllDigits(Hex, y) && !Hex.Accepts(sy)
    ensures WellFormed(Core(PublicHexAddr, 0, row, 0))
    ensures WellFormed(Core(PublicStrName, 0, row[0 := Number(Hex, x)][1 := Number(Hex, y)], 2))
    ensures Feed(Core(PublicHexAddr, 0, row, 0), x + [sx] + (y + [sy] + rest))
            == Feed(Core(PublicStrName, 0, row[0 := Number(Hex, x)][1 := Number(Hex, y)], 2), rest)
  {
    var row1: seq<u32> := row[0 := Number(Hex, x)];
    FeedField(Public, 0, row, x, sx, y + [sy] + rest, PublicHexParams);
    FeedField(Public, 1, row1, y, sy, rest, PublicStrName);
  }

  /** A name runs to the end of the line: it is sent, the newline is consumed and the record is complete. */
  lemma FeedName(c: Core, name: seq<byte>, rest: seq<byte>)
    requires WellFormed(c) && IsNameState(c.state) && NEWLINE !in name
    ensures Feed(c, name + [NEWLINE] + rest)
            == Prepend([OnStrValue(name)], Feed(c.(state := Next(c.state)), rest))
  {
    var s := name + [NEWLINE] + rest;
    assert s == name + ([NEWLINE] + rest);
    LineLengthOf(name, [NEWLINE] + rest);
    StepDispatch(c, s);
    FeedAfter(c, s, c.(state := Next(c.state)), [OnStrValue(name)], |name| + 1);
    assert s[|name| + 1..] == rest;
  }

  /** A line being dropped: everything up to and including its newline goes, and the next line starts. */
  lemma FeedSkipsLine(c: Core, line: seq<byte>, rest: seq<byte>)
    requires WellFormed(c) && c.state == Skip && NEWLINE !in line
    ensures Feed(c, line + [NEWLINE] + rest) == Feed(c.(state := Start), rest)
  {
    var s := line + [NEWLINE] + rest;
    assert s == line + ([NEWLINE] + rest);
    LineLengthOf(line, [NEWLINE] + rest);
    StepDispatch(c, s);
    FeedQuiet(c, s, c.(state := Start), |line| + 1);
    assert s[|line| + 1..] == rest;
  }

  /** The chunk ends inside a name: the name so far is sent and the parser keeps scanning it. */
  lemma FeedNameParks(c: Core, name: seq<byte>)
    requires WellFormed(c) && IsNameState(c.state) && |name| > 0 && NEWLINE !in name
    ensures Feed(c, name) == Trace(c, [OnStrValue(name)])
  {
    assert name + [] == name;
    LineLengthOf(name, []);
    StepDispatch(c, name);
    FeedAfter(c, name, c, [OnStrValue(name)], |name|);
    assert name[|name|..] == [];
    assert [OnStrValue(name)] + [] == [OnStrValue(name)];
  }

  /**
   * A complete record is reported when the next byte arrives: its event is
   * sent, read from the row, and the parser is back at Start with the
   * cursor at 0 and the row as it was.
   */
  lemma FeedRecordEnd(c: Core, rest: seq<byte>)
    requires WellFormed(c) && IsEndState(c.state) && |rest| > 0
    ensures Feed(c, rest) == Prepend([Completion(c)], Feed(Reset(c), rest))
    ensures Reset(c).row == c.row && Reset(c).state == Start
  {
    StepDispatch(c, rest);
    FeedAfter(c, rest, Reset(c), [Completion(c)], 0);
    assert rest[0..] == rest;
  }

  /** A complete line record meets the next byte: its four values are reported. */
  lemma LineEndReported(w: u32, x: u32, y: u32, z: u32, rest: seq<byte>)
    requires |rest| > 0
    ensures WellFormed(Core(End(Line), 0, [w, x, y, z], 4))
    ensures Feed(Core(End(Line), 0, [w, x, y, z], 4), rest)
            == Prepend([OnLine(w, x, y, z)], Feed(Core(Start, 0, [w, x, y, z], 0), rest))
  {
    FeedRecordEnd(Core(End(Line), 0, [w, x, y, z], 4), rest);
  }

  /** Writing all four slots leaves nothing of the old row. */
  lemma FillRow(row: seq<u32>, w: u32, x: u32, y: u32, z: u32)
    requires |row| == 4
    ensures row[0 := w][1 := x][2 := y][3 := z] == [w, x, y, z]
  {
    var r := row[0 := w][1 := x][2 := y][3 := z];
    assert r[0] == w && r[1] == x && r[2] == y && r[3] == z;
  }

  /** Three slots written into the fresh parser's row; the fourth stays 0. */
  lemma FillFresh(w: u32, x: u32, y: u32)
    ensures Initial.row[0 := w][1 := x][2 := y] == [w, x, y, 0]
  {
    var r := Initial.row[0 := w][1 := x][2 := y];
    assert r[0] == w && r[1] == x && r[2] == y && r[3] == 0;
  }

  // ---------------------------------------------------------------------------
  // Whole records
  // ---------------------------------------------------------------------------

  /**
   * A line record `address size line file_index`: two hex fields, two
   * decimal fields, each ended by one byte that is not one of its digits.
   * After the last delimiter the record is complete and all four values are
   * in the row.
   */
  lemma LineRecord(c: Core, a: seq<byte>, s1: byte, b: seq<byte>, s2: byte,
                   l: seq<byte>, s3: byte, f: seq<byte>, s4: byte, rest: seq<byte>)
    requires WellFormed(c) && c.state == Start
    requires |a| > 0 && AllDigits(Hex, a) && !Hex.Accepts(s1)
    requires AllDigits(Hex, b) && !Hex.Accepts(s2)
    requires AllDigits(Dec, l) && !Dec.Accepts(s3)
    requires AllDigits(Dec, f) && !Dec.Accepts(s4)
    ensures Feed(c, a + [s1] + (b + [s2] + (l + [s3] + (f + [s4] + rest))))
            == Feed(Core(End(Line), 0, [Number(Hex, a), Number(Hex, b), Number(Dec, l), Number(Dec, f)], 4), rest)
  {
    var r3 := f + [s4] + rest;
    var r2 := l + [s3] + r3;
    var r1 := b + [s2] + r2;
    var text := a + [s1] + r1;
    FillRow(c.row, Number(Hex, a), Number(Hex, b), Number(Dec, l), Number(Dec, f));
    LineTail(c.row[0 := Number(Hex, a)][1 := Number(Hex, b)], l, s3, f, s4, rest);
    LineHead(c.row, a, s1, b, s2, r2);
    assert c.(state := LineHexAddr) == Core(LineHexAddr, 0, c.row, 0);
    assert text[0] == a[0];
    FeedLineStart(c, text);
  }

  /**
   * The keyword of a function or file record, up to the first hex digit,
   * takes the parser to the record's first field with nothing sent.
   */
  lemma FuncOrFilePrefix(c: Core, key: byte, rec: Record, gap: seq<byte>, rest: seq<byte>)
    requires WellFormed(c) && c.state == Start && NoHexDigits(gap)
    requires |rest| > 0 && Hex.Accepts(rest[0])
    requires (rec == Func && key == CHAR_U) || (rec == File && key == CHAR_I)
    ensures WellFormed(Core(Field(rec, 0), 0, c.row, 0))
    ensures Feed(c, [CHAR_F, key] + gap + rest) == Feed(Core(Field(rec, 0), 0, c.row, 0), rest)
  {
    assert [CHAR_F, key] + gap + rest == [CHAR_F] + ([key] + (gap + rest));
    FeedOtherStart(c, CHAR_F, [key] + (gap + rest), FuncOrFile);
    var k := c.(state := FuncOrFile);
    FeedKeyword(k, key, gap + rest, Keyword(rec));
    var g := c.(state := Keyword(rec));
    FeedGap(g, gap, rest);
    assert g.(state := Next(g.state)) == Core(Field(rec, 0), 0, c.row, 0);
  }

  /** The keyword of a public record, up to the first hex digit, takes the parser to the address field. */
  lemma PublicPrefix(c: Core, gap: seq<byte>, rest: seq<byte>)
    requires WellFormed(c) && c.state == Start && NoHexDigits(gap)
    requires |rest| > 0 && Hex.Accepts(rest[0])
    ensures WellFormed(Core(PublicHexAddr, 0, c.row, 0))
    ensures Feed(c, [CHAR_P] + gap + rest) == Feed(Core(PublicHexAddr, 0, c.row, 0), rest)
  {
    assert [CHAR_P] + gap + rest == [CHAR_P] + (gap + rest);
    FeedOtherStart(c, CHAR_P, gap + rest, Keyword(Public));
    var g := c.(state := Keyword(Public));
    FeedGap(g, gap, rest);
    assert g.(state := Next(g.state)) == Core(PublicHexAddr, 0, c.row, 0);
  }

  /**
   * A function record `FUNC [m] address size param_size name`: the keyword
   * up to the first hex digit is skipped, three hex fields follow, and the
   * name is the rest of the line. The name is sent at once; the last row
   * slot keeps whatever an earlier record left there.
   */
  lemma FuncRecord(c: Core, gap: seq<byte>, a: seq<byte>, s1: byte, b: seq<byte>, s2: byte,
                   p: seq<byte>, s3: byte, name: seq<byte>, rest: seq<byte>)
    requires WellFormed(c) && c.state == Start && NoHexDigits(gap)
    requires |a| > 0 && AllDigits(Hex, a) && !Hex.Accepts(s1)
    requires AllDigits(Hex, b) && !Hex.Accepts(s2)
    requires AllDigits(Hex, p) && !Hex.Accepts(s3)
    requires NEWLINE !in name
    ensures Feed(c, [CHAR_F, CHAR_U] + gap + (a + [s1] + (b + [s2] + (p + [s3] + (name + [NEWLINE] + rest)))))
            == Prepend([OnStrValue(name)],
                       Feed(Core(End(Func), 0, c.row[0 := Number(Hex, a)][1 := Number(Hex, b)][2 := Number(Hex, p)], 3), rest))
  {
    var r2 := p + [s3] + (name + [NEWLINE] + rest);
    var r0 := a + [s1] + (b + [s2] + r2);
    var row2: seq<u32> := c.row[0 := Number(Hex, a)][1 := Number(Hex, b)];
    FuncTail(row2, p, s3, name, rest);
    FuncHead(c.row, a, s1, b, s2, r2);
    assert r0[0] == a[0];
    FuncOrFilePrefix(c, CHAR_U, Func, gap, r0);
  }

  /** A file record `FILE index name`: one decimal field, then the name. */
  lemma FileRecord(c: Core, gap: seq<byte>, idx: seq<byte>, s1: byte, name: seq<byte>, rest: seq<byte>)
    requires WellFormed(c) && c.state == Start && NoHexDigits(gap)
    requires |idx| > 0 && AllDigits(Dec, idx) && !Dec.Accepts(s1)
    requires NEWLINE !in name
    ensures Feed(c, [CHAR_F, CHAR_I] + gap + (idx + [s1] + (name + [NEWLINE] + rest)))
            == Prepend([OnStrValue(name)], Feed(Core(End(File), 0, c.row[0 := Number(Dec, idx)], 1), rest))
  {
    var r1 := name + [NEWLINE] + rest;
    var r0 := idx + [s1] + r1;
    FeedName(Core(FileStrName, 0, c.row[0 := Number(Dec, idx)], 1), name, rest);
    FeedField(File, 0, c.row, idx, s1, r1, FileStrName);
    assert r0[0] == idx[0];
    FuncOrFilePrefix(c, CHAR_I, File, gap, r0);
  }

  /** A public record `PUBLIC [m] address param_size name`: two hex fields, then the name. */
  lemma PublicRecord(c: Core, gap: seq<byte>, a: seq<byte>, s1: byte, p: seq<byte>, s2: byte,
                     name: seq<byte>, rest: seq<byte>)
    requires WellFormed(c) && c.state == Start && NoHexDigits(gap)
    requires |a| > 0 && AllDigits(Hex, a) && !Hex.Accepts(s1)
    requires AllDigits(Hex, p) && !Hex.Accepts(s2)
    requires NEWLINE !in name
    ensures Feed(c, [CHAR_P] + gap + (a + [s1] + (p + [s2] + (name + [NEWLINE] + rest))))
            == Prepend([OnStrValue(name)],
                       Feed(Core(End(Public), 0, c.row[0 := Number(Hex, a)][1 := Number(Hex, p)], 2), rest))
  {
    var r2 := name + [NEWLINE] + rest;
    var r0 := a + [s1] + (p + [s2] + r2);
    FeedName(Core(PublicStrName, 0, c.row[0 := Number(Hex, a)][1 := Number(Hex, p)], 2), name, rest);
    PublicHead(c.row, a, s1, p, s2, r2);
    assert r0[0] == a[0];
    PublicPrefix(c, gap, r0);
  }

  /**
   * A line record ended by its newline is reported as soon as the next line
   * begins, before anything of that line; the parser is then at Start with
   * the cursor at 0.
   */
  lemma LineReported(c: Core, a: seq<byte>, s1: byte, b: seq<byte>, s2: byte,
                     l: seq<byte>, s3: byte, f: seq<byte>, rest: seq<byte>)
    requires WellFormed(c) && c.state == Start && |rest| > 0
    requires |a| > 0 && AllDigits(Hex, a) && !Hex.Accepts(s1)
    requires AllDigits(Hex, b) && !Hex.Accepts(s2)
    requires AllDigits(Dec, l) && !Dec.Accepts(s3)
    requires AllDigits(Dec, f)
    ensures Feed(c, a + [s1] + (b + [s2] + (l + [s3] + (f + [NEWLINE] + rest))))
            == Prepend([OnLine(Number(Hex, a), Number(Hex, b), Number(Dec, l), Number(Dec, f))],
                       Feed(Core(Start, 0, [Number(Hex, a), Number(Hex, b), Number(Dec, l), Number(Dec, f)], 0), rest))
  {
    LineEndReported(Number(Hex, a), Number(Hex, b), Number(Dec, l), Number(Dec, f), rest);
    LineRecord(c, a, s1, b, s2, l, s3, f, NEWLINE, rest);
  }

  // ---------------------------------------------------------------------------
  // Lines the parser drops
  // ---------------------------------------------------------------------------

  /**
   * A line whose first byte is neither a hex digit, 'F' nor 'P' (a MODULE,
   * INFO or STACK line, say) is dropped up to and including its newline, and
   * nothing is sent for it.
   */
  lemma OtherLineDropped(c: Core, b: byte, line: seq<byte>, rest: seq<byte>)
    requires WellFormed(c) && c.state == Start && NEWLINE !in line
    requires !Hex.Accepts(b) && b != CHAR_F && b != CHAR_P
    ensures Feed(c, [b] + line + [NEWLINE] + rest) == Feed(c, rest)
  {
    assert [b] + line + [NEWLINE] + rest == [b] + (line + [NEWLINE] + rest);
    FeedOtherStart(c, b, line + [NEWLINE] + rest, Skip);
    FeedSkipsLine(c.(state := Skip), line, rest);
  }

  /**
   * An empty line is not a line to the parser: its newline is taken for the
   * first byte of a line of an unknown kind, so the line after it is dropped
   * whatever it holds.
   */
  lemma EmptyLineDropsNext(c: Core, next: seq<byte>, rest: seq<byte>)
    requires WellFormed(c) && c.state == Start && NEWLINE !in next
    ensures Feed(c, [NEWLINE] + next + [NEWLINE] + rest) == Feed(c, rest)
  {
    OtherLineDropped(c, NEWLINE, next, rest);
  }

  /**
   * After 'F' only 'U' and 'I' select a record; any other byte drops the
   * line. When that byte is the newline ("F" alone on a line) the line after
   * it is dropped too.
   */
  lemma UnknownKeywordDropped(c: Core, b: byte, line: seq<byte>, rest: seq<byte>)
    requires WellFormed(c) && c.state == Start && NEWLINE !in line
    requires b != CHAR_U && b != CHAR_I
    ensures Feed(c, [CHAR_F, b] + line + [NEWLINE] + rest) == Feed(c, rest)
  {
    assert [CHAR_F, b] + line + [NEWLINE] + rest == [CHAR_F] + ([b] + (line + [NEWLINE] + rest));
    FeedOtherStart(c, CHAR_F, [b] + (line + [NEWLINE] + rest), FuncOrFile);
    FeedKeyword(c.(state := FuncOrFile), b, line + [NEWLINE] + rest, Skip);
    FeedSkipsLine(c.(state := Skip), line, rest);
  }

  /**
   * The keyword of a file record is skipped up to the first HEX digit, but
   * the index is decimal: when that digit is a letter 'a'..'f', the index
   * field ends at once with value 0, the letter is consumed as its
   * delimiter, and the name starts after it.
   */
  lemma FileIndexAtHexLetter(c: Core, gap: seq<byte>, h: byte, rest: seq<byte>)
    requires WellFormed(c) && c.state == Start && NoHexDigits(gap)
    requires CHAR_LOWER_A <= h <= CHAR_LOWER_F
    ensures Feed(c, [CHAR_F, CHAR_I] + gap + ([h] + rest)) == Feed(Core(FileStrName, 0, c.row[0 := 0], 1), rest)
  {
    IndexEndsAtLetter(c.row, h, rest);
    assert ([h] + rest)[0] == h;
    FuncOrFilePrefix(c, CHAR_I, File, gap, [h] + rest);
  }

  /** The index field ends at once, with value 0, on a byte that is not a decimal digit. */
  lemma IndexEndsAtLetter(row: seq<u32>, h: byte, rest: seq<byte>)
    requires |row| == 4 && !Dec.Accepts(h)
    ensures Feed(Core(FileDecIndex, 0, row, 0), [h] + rest) == Feed(Core(FileStrName, 0, row[0 := 0], 1), rest)
  {
    assert [] + [h] + rest == [h] + rest;
    FeedField(File, 0, row, [], h, rest, FileStrName);
  }

  // ---------------------------------------------------------------------------
  // Whole inputs: what the sink receives
  // ---------------------------------------------------------------------------

  /** The transcript of a single chunk: what feeding it sends, then what finishing sends. */
  lemma TranscriptOfOne(s: seq<byte>)
    ensures var t := Feed(Initial, s); Transcript([s]) == t.emitted + Finished(t.core).emitted
  {
    var t := Feed(Initial, s);
    assert [s][1..] == [];
    assert FeedAll(Initial, [s]) == Trace(t.core, t.emitted + []);
    assert t.emitted + [] == t.emitted;
  }

  /** The transcript of two chunks: the second is fed to the fields the first left. */
  lemma TranscriptOfTwo(x: seq<byte>, y: seq<byte>)
    ensures var t := Feed(Initial, x); var u := Feed(t.core, y);
            Transcript([x, y]) == t.emitted + u.emitted + Finished(u.core).emitted
  {
    var t := Feed(Initial, x);
    var u := Feed(t.core, y);
    assert [x, y][1..] == [y];
    assert [y][1..] == [];
    assert FeedAll(u.core, []) == Trace(u.core, []);
    assert FeedAll(t.core, [y]) == Trace(u.core, u.emitted + []);
    assert FeedAll(Initial, [x, y]) == Trace(u.core, t.emitted + (u.emitted + []));
    assert t.emitted + (u.emitted + []) == t.emitted + u.emitted;
  }

  /** A line record alone in the input is reported by `finish`, with its four values. */
  lemma LineTranscript(a: seq<byte>, s1: byte, b: seq<byte>, s2: byte, l: seq<byte>, s3: byte, f: seq<byte>, s4: byte)
    requires |a| > 0 && AllDigits(Hex, a) && !Hex.Accepts(s1)
    requires AllDigits(Hex, b) && !Hex.Accepts(s2)
    requires AllDigits(Dec, l) && !Dec.Accepts(s3)
    requires AllDigits(Dec, f) && !Dec.Accepts(s4)
    ensures Transcript([a + [s1] + (b + [s2] + (l + [s3] + (f + [s4])))])
            == [OnLine(Number(Hex, a), Number(Hex, b), Number(Dec, l), Number(Dec, f))]
  {
    var text := a + [s1] + (b + [s2] + (l + [s3] + (f + [s4])));
    assert f + [s4] + [] == f + [s4];
    LineRecord(Initial, a, s1, b, s2, l, s3, f, s4, []);
    var e := Core(End(Line), 0, [Number(Hex, a), Number(Hex, b), Number(Dec, l), Number(Dec, f)], 4);
    assert Feed(Initial, text) == Trace(e, []);
    TranscriptOfOne(text);
  }

  /**
   * A line record cut short inside its last field (no delimiter after the
   * file index) is never reported: the field is left in the accumulator and
   * `finish` only reports a record whose last field has ended.
   */
  lemma TruncatedLineDropped(a: seq<byte>, s1: byte, b: seq<byte>, s2: byte, l: seq<byte>, s3: byte, f: seq<byte>)
    requires |a| > 0 && AllDigits(Hex, a) && !Hex.Accepts(s1)
    requires AllDigits(Hex, b) && !Hex.Accepts(s2)
    requires AllDigits(Dec, l) && !Dec.Accepts(s3)
    requires AllDigits(Dec, f)
    ensures Transcript([a + [s1] + (b + [s2] + (l + [s3] + f))]) == []
  {
    var text := a + [s1] + (b + [s2] + (l + [s3] + f));
    var row2: seq<u32> := Initial.row[0 := Number(Hex, a)][1 := Number(Hex, b)];
    var c := Core(LineDecFile, 0, row2[2 := Number(Dec, l)], 3);
    if f != [] {
      ScanNumberParks(c, f);
      StepDispatch(c, f);
      FeedQuiet(c, f, c.(intValue := Fold(Dec, 0, f)), |f|);
      assert f[|f|..] == [];
    }
    FeedField(Line, 2, row2, l, s3, f, LineDecFile);
    LineHead(Initial.row, a, s1, b, s2, l + [s3] + f);
    assert text[0] == a[0];
    FeedLineStart(Initial, text);
    assert Feed(Initial, text).emitted == [] && !IsEndState(Feed(Initial, text).core.state);
    TranscriptOfOne(text);
  }

  /** A function record alone in the input: its name is sent, then `finish` reports the record. */
  lemma FuncTranscript(gap: seq<byte>, a: seq<byte>, s1: byte, b: seq<byte>, s2: byte,
                       p: seq<byte>, s3: byte, name: seq<byte>)
    requires NoHexDigits(gap)
    requires |a| > 0 && AllDigits(Hex, a) && !Hex.Accepts(s1)
    requires AllDigits(Hex, b) && !Hex.Accepts(s2)
    requires AllDigits(Hex, p) && !Hex.Accepts(s3)
    requires NEWLINE !in name
    ensures Transcript([[CHAR_F, CHAR_U] + gap + (a + [s1] + (b + [s2] + (p + [s3] + (name + [NEWLINE]))))])
            == [OnStrValue(name), OnFunc(Number(Hex, a), Number(Hex, b), Number(Hex, p))]
  {
    var text := [CHAR_F, CHAR_U] + gap + (a + [s1] + (b + [s2] + (p + [s3] + (name + [NEWLINE]))));
    assert name + [NEWLINE] + [] == name + [NEWLINE];
    FuncRecord(Initial, gap, a, s1, b, s2, p, s3, name, []);
    var row := Initial.row[0 := Number(Hex, a)][1 := Number(Hex, b)][2 := Number(Hex, p)];
    assert Feed(Initial, text) == Trace(Core(End(Func), 0, row, 3), [OnStrValue(name)]);
    TranscriptOfOne(text);
  }

  /** The input ends inside the name of a function record: the name so far is sent, and nothing else yet. */
  lemma FuncNameParks(gap: seq<byte>, a: seq<byte>, s1: byte, b: seq<byte>, s2: byte,
                      p: seq<byte>, s3: byte, name: seq<byte>)
    requires NoHexDigits(gap)
    requires |a| > 0 && AllDigits(Hex, a) && !Hex.Accepts(s1)
    requires AllDigits(Hex, b) && !Hex.Accepts(s2)
    requires AllDigits(Hex, p) && !Hex.Accepts(s3)
    requires |name| > 0 && NEWLINE !in name
    ensures Feed(Initial, [CHAR_F, CHAR_U] + gap + (a + [s1] + (b + [s2] + (p + [s3] + name))))
            == Trace(Core(FuncStrName, 0, [Number(Hex, a), Number(Hex, b), Number(Hex, p), 0], 3), [OnStrValue(name)])
  {
    var r2 := p + [s3] + name;
    var r0 := a + [s1] + (b + [s2] + r2);
    var row2: seq<u32> := Initial.row[0 := Number(Hex, a)][1 := Number(Hex, b)];
    var c := Core(FuncStrName, 0, row2[2 := Number(Hex, p)], 3);
    FillFresh(Number(Hex, a), Number(Hex, b), Number(Hex, p));
    FeedNameParks(c, name);
    FeedField(Func, 2, row2, p, s3, name, FuncStrName);
    FuncHead(Initial.row, a, s1, b, s2, r2);
    assert r0[0] == a[0];
    FuncOrFilePrefix(Initial, CHAR_U, Func, gap, r0);
  }

  /**
   * A function record whose name has no newline before the input ends is
   * never reported, although its name was sent: `finish` reports nothing
   * while a name is being scanned.
   */
  lemma UnterminatedFuncDropped(gap: seq<byte>, a: seq<byte>, s1: byte, b: seq<byte>, s2: byte,
                                p: seq<byte>, s3: byte, name: seq<byte>)
    requires NoHexDigits(gap)
    requires |a| > 0 && AllDigits(Hex, a) && !Hex.Accepts(s1)
    requires AllDigits(Hex, b) && !Hex.Accepts(s2)
    requires AllDigits(Hex, p) && !Hex.Accepts(s3)
    requires |name| > 0 && NEWLINE !in name
    ensures Transcript([[CHAR_F, CHAR_U] + gap + (a + [s1] + (b + [s2] + (p + [s3] + name)))]) == [OnStrValue(name)]
  {
    FuncNameParks(gap, a, s1, b, s2, p, s3, name);
    TranscriptOfOne([CHAR_F, CHAR_U] + gap + (a + [s1] + (b + [s2] + (p + [s3] + name))));
  }

  /**
   * A name cut by a chunk boundary arrives in two fragments, the part in
   * each chunk, and both come before the record's completion event; the
   * part after the boundary may be empty, and is then sent as an empty
   * fragment.
   */
  lemma FuncNameAcrossChunks(gap: seq<byte>, a: seq<byte>, s1: byte, b: seq<byte>, s2: byte,
                             p: seq<byte>, s3: byte, name1: seq<byte>, name2: seq<byte>)
    requires NoHexDigits(gap)
    requires |a| > 0 && AllDigits(Hex, a) && !Hex.Accepts(s1)
    requires AllDigits(Hex, b) && !Hex.Accepts(s2)
    requires AllDigits(Hex, p) && !Hex.Accepts(s3)
    requires |name1| > 0 && NEWLINE !in name1 && NEWLINE !in name2
    ensures Transcript([[CHAR_F, CHAR_U] + gap + (a + [s1] + (b + [s2] + (p + [s3] + name1))), name2 + [NEWLINE]])
            == [OnStrValue(name1), OnStrValue(name2), OnFunc(Number(Hex, a), Number(Hex, b), Number(Hex, p))]
  {
    var x := [CHAR_F, CHAR_U] + gap + (a + [s1] + (b + [s2] + (p + [s3] + name1)));
    var y := name2 + [NEWLINE];
    FuncNameParks(gap, a, s1, b, s2, p, s3, name1);
    var c := Core(FuncStrName, 0, [Number(Hex, a), Number(Hex, b), Number(Hex, p), 0], 3);
    assert name2 + [NEWLINE] + [] == y;
    FeedName(c, name2, []);
    assert Feed(c, y) == Trace(c.(state := End(Func)), [OnStrValue(name2)]);
    TranscriptOfTwo(x, y);
  }

  /**
   * Lines ended by "\r\n": the carriage return ends the last field of a
   * line record, so the newline after it is taken for the first byte of an
   * unknown line, and the line that follows is dropped.
   */
  lemma CarriageReturnDropsNext(c: Core, a: seq<byte>, s1: byte, b: seq<byte>, s2: byte,
                                l: seq<byte>, s3: byte, f: seq<byte>, next: seq<byte>, rest: seq<byte>)
    requires WellFormed(c) && c.state == Start && NEWLINE !in next
    requires |a| > 0 && AllDigits(Hex, a) && !Hex.Accepts(s1)
    requires AllDigits(Hex, b) && !Hex.Accepts(s2)
    requires AllDigits(Dec, l) && !Dec.Accepts(s3)
    requires AllDigits(Dec, f)
    ensures Feed(c, a + [s1] + (b + [s2] + (l + [s3] + (f + [CARRIAGE_RETURN] + ([NEWLINE] + next + [NEWLINE] + rest)))))
            == Prepend([OnLine(Number(Hex, a), Number(Hex, b), Number(Dec, l), Number(Dec, f))],
                       Feed(Core(Start, 0, [Number(Hex, a), Number(Hex, b), Number(Dec, l), Number(Dec, f)], 0), rest))
  {
    var after := [NEWLINE] + next + [NEWLINE] + rest;
    EmptyLineDropsNext(Core(Start, 0, [Number(Hex, a), Number(Hex, b), Number(Dec, l), Number(Dec, f)], 0), next, rest);
    LineEndReported(Number(Hex, a), Number(Hex, b), Number(Dec, l), Number(Dec, f), after);
    LineRecord(c, a, s1, b, s2, l, s3, f, CARRIAGE_RETURN, after);
  }

  /**
   * In a function, file or public record the name runs to the newline
   * alone: a carriage return before it becomes the last byte of the name,
   * the record is reported when the next line begins, and that line is read
   * from Start as usual.
   */
  lemma CarriageReturnInName(c: Core, name: seq<byte>, rest: seq<byte>)
    requires WellFormed(c) && IsNameState(c.state) && NEWLINE !in name && |rest| > 0
    ensures IsEndState(Next(c.state))
    ensures Feed(c, name + [CARRIAGE_RETURN, NEWLINE] + rest)
            == Prepend([OnStrValue(name + [CARRIAGE_RETURN]), Completion(c.(state := Next(c.state)))],
                       Feed(c.(state := Start, rowPos := 0), rest))
  {
    var e := c.(state := Next(c.state));
    var t := Feed(Reset(e), rest);
    assert name + [CARRIAGE_RETURN, NEWLINE] + rest == name + [CARRIAGE_RETURN] + [NEWLINE] + rest;
    assert [OnStrValue(name + [CARRIAGE_RETURN])] + ([Completion(e)] + t.emitted)
           == [OnStrValue(name + [CARRIAGE_RETURN]), Completion(e)] + t.emitted;
    FeedRecordEnd(e, rest);
    FeedName(c, name + [CARRIAGE_RETURN], rest);
  }

  /**
   * The keyword skip does not stop at a newline: a `P` line with no hex
   * digit in it takes the next line's fields for its own. A line record
   * after a bare `P` is read as a public record whose address and parameter
   * size are the line's address and size, and whose name is the rest of
   * the line.
   */
  lemma BarePublicTakesNextLine(a: seq<byte>, s1: byte, b: seq<byte>, s2: byte, l: seq<byte>, s3: byte, f: seq<byte>)
    requires |a| > 0 && AllDigits(Hex, a) && !Hex.Accepts(s1)
    requires AllDigits(Hex, b) && !Hex.Accepts(s2)
    requires AllDigits(Dec, l) && s3 != NEWLINE && AllDigits(Dec, f)
    ensures Transcript([[CHAR_P, NEWLINE] + (a + [s1] + (b + [s2] + (l + [s3] + f + [NEWLINE])))])
            == [OnStrValue(l + [s3] + f), OnPublic(Number(Hex, a), Number(Hex, b))]
  {
    var name := l + [s3] + f;
    assert forall i :: 0 <= i < |name| ==> name[i] != NEWLINE by {
      forall i | 0 <= i < |name|
        ensures name[i] != NEWLINE
      {
        if i < |l| {
          assert Dec.Accepts(l[i]);
        } else if i > |l| {
          assert Dec.Accepts(f[i - |l| - 1]);
        }
      }
    }
    assert !Hex.Accepts(NEWLINE);
    assert NoHexDigits([NEWLINE]);
    assert [CHAR_P] + [NEWLINE] + (a + [s1] + (b + [s2] + (name + [NEWLINE])))
           == [CHAR_P, NEWLINE] + (a + [s1] + (b + [s2] + (l + [s3] + f + [NEWLINE])));
    PublicTranscript([NEWLINE], a, s1, b, s2, name);
  }

  /** A file record alone in the input: its name is sent, then `finish` reports the index. */
  lemma FileTranscript(gap: seq<byte>, idx: seq<byte>, s1: byte, name: seq<byte>)
    requires NoHexDigits(gap)
    requires |idx| > 0 && AllDigits(Dec, idx) && !Dec.Accepts(s1)
    requires NEWLINE !in name
    ensures Transcript([[CHAR_F, CHAR_I] + gap + (idx + [s1] + (name + [NEWLINE]))])
            == [OnStrValue(name), OnFile(Number(Dec, idx))]
  {
    var text := [CHAR_F, CHAR_I] + gap + (idx + [s1] + (name + [NEWLINE]));
    assert name + [NEWLINE] + [] == name + [NEWLINE];
    FileRecord(Initial, gap, idx, s1, name, []);
    assert Feed(Initial, text) == Trace(Core(End(File), 0, Initial.row[0 := Number(Dec, idx)], 1), [OnStrValue(name)]);
    TranscriptOfOne(text);
  }

  /** A public record alone in the input: its name is sent, then `finish` reports the address and parameter size. */
  lemma PublicTranscript(gap: seq<byte>, a: seq<byte>, s1: byte, p: seq<byte>, s2: byte, name: seq<byte>)
    requires NoHexDigits(gap)
    requires |a| > 0 && AllDigits(Hex, a) && !Hex.Accepts(s1)
    requires AllDigits(Hex, p) && !Hex.Accepts(s2)
    requires NEWLINE !in name
    ensures Transcript([[CHAR_P] + gap + (a + [s1] + (p + [s2] + (name + [NEWLINE])))])
            == [OnStrValue(name), OnPublic(Number(Hex, a), Number(Hex, p))]
  {
    var text := [CHAR_P] + gap + (a + [s1] + (p + [s2] + (name + [NEWLINE])));
    assert name + [NEWLINE] + [] == name + [NEWLINE];
    PublicRecord(Initial, gap, a, s1, p, s2, name, []);
    var row := Initial.row[0 := Number(Hex, a)][1 := Number(Hex, p)];
    assert Feed(Initial, text) == Trace(Core(End(Public), 0, row, 2), [OnStrValue(name)]);
    TranscriptOfOne(text);
  }
}
